=== FILE: README.md ===
# Data-access layer of ts-koa-starter, modelled in Dafny

The repository wraps three database drivers behind one contract: a MySQL
wrapper and a PostgreSQL wrapper over networked connection pools, and a
SQLite wrapper over one embedded database handle. Each is a singleton
offering `query`, `queryOne`, `execute`, `batch` and `transaction`; MySQL
adds `callProcedure`, MySQL and PostgreSQL add `getPoolStatus`, and SQLite
adds `prepare` and the `instance` getter. This project models the logic the
wrappers add on top of their drivers, plus the path mapping of the `/upload`
handler, and proves what that logic promises.

The drivers (mysql2, pg, better-sqlite3) are third-party libraries, so each
one appears as a datatype of total functions that answer every call with
`Ok` (a reply and the data afterwards) or `Err` (an error). The backend's
state is its committed data plus the number of pooled connections in use.
Atomicity, release on every path and the batch folds then become
postconditions.

Modules, one per concern:

- `Results` (`results.dfy`): `Option`, `Result`, `Error`. A thrown error is returned as `Err`.
- `Js` (`js.dfy`): the untyped JavaScript values the wrappers pass on, truthiness, and `a || b` as used for defaults.
- `Lifecycle` (`lifecycle.dfy`): pool state, the transaction scope state machine (Idle → Held → Began → Committed | RolledBack → Released), the shared coordinator `Run`, and `RunAll`, which runs one statement per parameter set in order.
- `Singleton` (`singleton.dfy`): the lazily built static instance that all three `getInstance` share.
- `MySql`, `Pg`, `Sqlite` (`mysql.dfy`, `pg.dfy`, `sqlite.dfy`): one wrapper each.
- `Upload` (`upload.dfy`): the `/upload` handler's path mapping.

Behaviours of the code that the model keeps:

- `rollback()` inside `catch` is not guarded. When it throws, its error replaces the original one (`Lifecycle.Run`, `Pg.Transaction`).
- The connection is leased before `try`. A failed lease throws and releases nothing.
- `waitForConnections: config.waitForConnections || true` is always true (`MySql.OptionsFor`).
- The SQLite `batch` loop binds every parameter set as given, falsy or not. `execute`, `query` and `queryOne` drop falsy parameters (`Sqlite.BatchBindsEverySet`).
- An unset `SITE` is rendered by the template string as `undefined` (`Upload.SiteText`).
- MySQL's `batch` keeps the last insert id that is `> 0`. SQLite's keeps the last truthy one, which is any non-zero id, negative ones included.
- MySQL's `getPoolStatus` returns a leased connection's thread id and configuration.
- `getInstance` checks only that a configuration object is present, not its fields.
- MySQL's `query` may answer a result header in place of rows: for a write, or for a `CALL` whose procedure returns no result set. `queryOne` then gives null, and `callProcedure` returns the header.

## Model

| member | source | states |
|---|---|---|
| `Js.IntOr` | src/utils/mysql.ts:39-42 | `config.x \|\| d` on an optional number equals JavaScript's `\|\|` on the corresponding values: a non-zero configured value is kept, absent or 0 gives the default |
| `Js.BoolOr` | src/utils/mysql.ts:41 | `config.x \|\| d` on an optional boolean agrees with JavaScript's `\|\|`; with default `true` the result is always true |
| `Js.StringOr` | src/utils/mysql.ts:43 | `config.x \|\| d` on an optional string agrees with JavaScript's `\|\|`; a non-empty configured string is kept |
| `Lifecycle.CompletedTraces` | src/utils/mysql.ts:170-184 | the scope state machine admits exactly three complete runs: acquire-begin-commit-release, acquire-begin-rollback-release, and acquire-rollback-release when BEGIN fails |
| `Lifecycle.CompletedReleasesOnce` | src/utils/mysql.ts:181-183 | every complete scope acquires once, releases exactly once as its last step, and ends in exactly one of COMMIT and ROLLBACK |
| `Lifecycle.Run` | src/utils/mysql.ts:170-184 | a failed lease throws, leaves the pool unchanged and releases nothing; otherwise the trace is a complete scope, passing through `Begin` exactly when BEGIN succeeded, and the in-use count returns to its value before the call; success, which needs BEGIN, callback and COMMIT all to succeed, returns the callback's value and makes its data durable; any failure leaves the committed data untouched, rolls back once, and throws the rollback's error if that fails, else the original |
| `Lifecycle.RunAll` | src/utils/mysql.ts:142-153 | a success has one answer per parameter set; a failing first statement is the error (the in-order threading is stated by `Lifecycle.RunAllAppend`) |
| `Lifecycle.RunAllAppend` | src/utils/mysql.ts:142-153 | running the sets `ps` then `qs` equals running `ps + qs`: the later sets start from the data the earlier ones left, their answers follow in order, and a failure anywhere is the failure of the whole run |
| `Lifecycle.RunAllOne` | src/utils/mysql.ts:142-144 | one parameter set gives exactly its statement's answer and data, or its error |
| `Singleton.GetInstance` | src/utils/mysql.ts:55-63 | an existing instance is returned whatever configuration is passed; no instance and no configuration throws the given message and stores nothing; otherwise the result is exactly the constructor's, error included, and a built instance is stored |
| `Singleton.SameInstanceAfterwards` | src/utils/mysql.ts:56-62 | across any run of calls, once one call returns an instance every later call returns that same instance |
| `Singleton.OneInstance` | src/utils/pg.ts:36-42 | any two successful calls in a run of calls return the same instance |
| `MySql.OptionsFor` | src/utils/mysql.ts:31-47 | connection fields are copied; `connectionLimit`, `queueLimit`, `connectTimeout`, `timezone` and `ssl` fall back to 10, 0, 10000, "Z" and undefined exactly when falsy and are kept otherwise; `waitForConnections` and `dateStrings` are always true |
| `MySql.GetInstance` | src/utils/mysql.ts:31-63 | without instance or configuration it throws "MySQL configuration required"; an existing instance is returned unchanged; with a configuration and no instance it succeeds exactly when the pool can be created from the options built from that configuration, rethrows the pool creation error otherwise, and stores the new instance |
| `MySql.Query` | src/utils/mysql.ts:70-81 | succeeds exactly when the driver does; returns the driver's answer unchanged, rows or result header, and commits the statement's effects; on error rethrows the driver's error with the pool unchanged |
| `MySql.QueryOne` | src/utils/mysql.ts:88-99 | the first row of what `query` returns; null for an empty result or a result header, neither being an error; errors and committed effects are those of `query` |
| `MySql.ShapeRoundTrip` | src/utils/mysql.ts:113-124 | the reshaping of an `execute` answer is invertible: `insertId` is present exactly for write headers, whose two numbers are copied verbatim, and a row set keeps its rows |
| `MySql.Execute` | src/utils/mysql.ts:106-129 | a write header becomes `{rows: [], affectedRows, insertId}` with its two numbers, a row set becomes `{rows, affectedRows: 0}` with no id, and the shaped result reads back to the driver's answer; the statement's effects are committed; on error the driver's error is rethrown and the pool is unchanged |
| `MySql.LastInsertIdIsLast` | src/utils/mysql.ts:149-151 | the batch's insert id is 0 exactly when no statement gave a positive id, and otherwise is the id of the last statement that did |
| `MySql.LastInsertIdCons` | src/utils/mysql.ts:145-152 | the loop's update rule, seen from the front: a later positive id overrides an earlier one |
| `MySql.BatchLoopFolds` | src/utils/mysql.ts:139-161 | the batch loop equals the folds over the answers of the statements run in order: affected rows summed over write headers only, last positive insert id; it fails exactly when one statement fails |
| `MySql.Batch` | src/utils/mysql.ts:136-164 | the batch runs in one transaction; on success the result has no rows, the summed affected rows and the last positive insert id, and the data after the last set is committed; a failed lease throws with nothing released; after a lease the scope is complete, passes through `Begin` exactly when BEGIN succeeded, ROLLBACK is sent exactly when the batch fails, and the error thrown is ROLLBACK's own if it fails, else the first failure among BEGIN, the sets in order and COMMIT (`BatchFailure`), success needing that there be none; a failure leaves the committed data as before; the in-use count is restored |
| `MySql.PlaceholdersShape` | src/utils/mysql.ts:194 | the placeholder list for n parameters alternates `?` and `,`, starting and ending with `?`, and has 2n-1 characters, or none for n = 0 |
| `MySql.PlaceholdersCount` | src/utils/mysql.ts:194 | the placeholder list holds exactly n `?` marks |
| `MySql.CallSqlShape` | src/utils/mysql.ts:194-195 | the procedure statement is `CALL <name>` followed by the parenthesised placeholder list, which holds exactly one `?` per parameter |
| `MySql.CallProcedure` | src/utils/mysql.ts:191-206 | issues the `CALL` statement with the parameters (none when omitted); returns the first result set when the answer is an array starting with an array, and otherwise the answer as it came: an empty array, plain rows, or a result header; errors propagate |
| `MySql.GetPoolStatus` | src/utils/mysql.ts:211-221 | a failed lease throws and releases nothing; otherwise one connection is acquired and released, the thread id is reported with null read as 0, and the pool is unchanged |
| `Pg.OptionsFor` | src/utils/pg.ts:22-28 | the configuration is spread into the pool options; `max`, `idleTimeoutMillis` and `connectionTimeoutMillis` fall back to 20, 30000 and 10000 exactly when falsy and are kept otherwise |
| `Pg.GetInstance` | src/utils/pg.ts:36-42 | without instance or configuration it throws "PostgreSQL configuration required"; otherwise it returns the stored instance or builds, stores and returns a new one |
| `Pg.WithClient` | src/utils/pg.ts:53-65 | a failed lease throws and releases nothing; otherwise the client is acquired and released exactly once, on success and on error; the statement's own error is rethrown; the in-use count is restored |
| `Pg.Query` | src/utils/pg.ts:49-66 | returns the answer's rows; a failed lease throws with nothing released, otherwise the client is acquired and released once; the statement's error is rethrown with the data unchanged; on success its effects are committed; the in-use count is restored |
| `Pg.QueryOne` | src/utils/pg.ts:73-90 | the first row of the answer, or null when it has none; the same lease, release, error and commit behaviour as `query` |
| `Pg.CountOf` | src/utils/pg.ts:108 | `rowCount \|\| 0` agrees with JavaScript's `\|\|`: null becomes 0 |
| `Pg.Execute` | src/utils/pg.ts:97-117 | returns the answer's rows and its row count, null read as 0; the same lease, release, error and commit behaviour as `query` |
| `Pg.Transaction` | src/utils/pg.ts:153-169 | BEGIN and COMMIT are statements on the leased client; success needs the lease, BEGIN, the callback and COMMIT and returns the callback's value with its data committed; after a lease the trace passes through `Begin` exactly when the BEGIN statement succeeded; any failure after the lease sends ROLLBACK and leaves the data untouched; the ROLLBACK's own error replaces the original, otherwise the first failure among BEGIN, the callback and COMMIT is rethrown; the client is released on every path after a lease |
| `Pg.ConcatRowsInOrder` | src/utils/pg.ts:135 | in the concatenated rows, the rows of each statement appear together, in statement order, right after those of the statements before it |
| `Pg.BatchLoopFolds` | src/utils/pg.ts:130-145 | the batch loop equals the concatenation of rows and the sum of row counts (null as 0) over the statements run in order; it fails exactly when one statement fails |
| `Pg.Batch` | src/utils/pg.ts:124-147 | the batch runs in one transaction; on success it returns the summed row counts and concatenated rows and commits the data after the last set; after a lease the scope is complete, passes through `Begin` exactly when the BEGIN statement succeeded, ROLLBACK is sent exactly when the batch fails, and the error thrown is ROLLBACK's own if it fails, else the first failure among BEGIN, the sets in order and COMMIT (`BatchFailure`), success needing that there be none; a failure leaves the data as before; the in-use count is restored |
| `Sqlite.OptionsFor` | src/utils/sqlite.ts:28-33 | `readonly` and `fileMustExist` are true only when configured true; `timeout` falls back to 5000 exactly when falsy; `verbose` falls back to false |
| `Sqlite.Create` | src/utils/sqlite.ts:26-46 | opening fails exactly when the engine refuses the file with those options, and that same error is rethrown; an opened handle has foreign keys turned on |
| `Sqlite.GetInstance` | src/utils/sqlite.ts:49-57 | without instance or configuration it throws "SQLite configuration required"; an existing instance is returned unchanged; otherwise the result is exactly what opening that configuration gives, a newly built instance has foreign keys on and is stored only when opening succeeded |
| `Sqlite.Bind` | src/utils/sqlite.ts:68 | parameters are bound exactly when they are truthy, and then as given |
| `Sqlite.Query` | src/utils/sqlite.ts:64-76 | a refused statement throws; otherwise the engine's rows, with truthy parameters bound and falsy ones dropped |
| `Sqlite.QueryOne` | src/utils/sqlite.ts:83-95 | a refused statement throws; otherwise the engine's single-row answer unchanged, undefined included, with the same binding rule |
| `Sqlite.Execute` | src/utils/sqlite.ts:102-117 | succeeds exactly when the statement prepares and runs; returns exactly the run's `changes` and `lastInsertRowid` with nothing else and commits its effects; a failure rethrows the prepare error, else the run error, and changes nothing |
| `Sqlite.FalsyParamsAreDropped` | src/utils/sqlite.ts:68-106 | with falsy parameters, `query`, `queryOne` and `execute` behave exactly as if no parameters were passed |
| `Sqlite.Transaction` | src/utils/sqlite.ts:160-165 | returns the callback's value with its effects kept exactly when the callback succeeds; a throw propagates with the data as before |
| `Sqlite.LastRowidIsLast` | src/utils/sqlite.ts:135-137 | the batch's row id is 0 exactly when every run reported 0, and otherwise is the non-zero row id of the last run that reported one |
| `Sqlite.LastRowidCons` | src/utils/sqlite.ts:132-138 | the loop's update rule, seen from the front: a later truthy row id overrides an earlier one |
| `Sqlite.BatchLoopFolds` | src/utils/sqlite.ts:131-139 | the batch loop equals the sum of changes and the last truthy row id over the runs made in order; it fails exactly when one run fails |
| `Sqlite.Batch` | src/utils/sqlite.ts:124-154 | a refused statement throws before anything runs; otherwise all sets run inside one engine transaction: success returns the summed changes and last truthy row id and keeps the data after the last set, and a failure at any set rethrows that set's error with no set applied |
| `Sqlite.BatchBindsEverySet` | src/utils/sqlite.ts:133 | a one-set batch runs with its parameters bound even when they are falsy, and agrees with `execute` when they are truthy |
| `Upload.FixSlashes` | src/controller/home-controller.ts:28 | same length as the stored path, every backslash replaced by a slash and every other character kept |
| `Upload.FixSlashesNormalises` | src/controller/home-controller.ts:28 | no backslash is left, and normalising again changes nothing |
| `Upload.LocPath` | src/controller/home-controller.ts:29 | the reported path always begins with `/public` and ends with the normalised path: a path starting with `public` gains only a leading slash, any other is placed under `/public/` |
| `Upload.PrefixIsNotDirectory` | src/controller/home-controller.ts:29 | for every stored path that starts with `public` but not with `public/`, the reported path is that path after a single slash, outside `/public/` |
| `Upload.MapPhoto` | src/controller/home-controller.ts:28-33 | the URL is `SITE` followed by the reported path; the reported path begins with `/public`, has no backslash and ends with the normalised stored path |
| `Upload.HandleUpload` | src/controller/home-controller.ts:25-36 | the response is always code 200 with message "成功"; with no files or no `photos` field the data is empty; otherwise it has one entry per photo, in upload order, each the photo's mapping |

## Left out

- Driver behaviour (mysql2, pg, better-sqlite3): SQL parsing, constraints and row contents are oracle answers. SQLite `all` and `get` are read-only in the model.
- Timing and logging: `Date.now`, `console.log`/`console.error`, the pool's `error` listener, and the production SQL file logger in `sqlite.ts`. These are side effects only.
- Asynchronous scheduling, pool queueing and timeouts, and SQLite's single-writer lock. This is concurrency inside the drivers. A lease's success is an oracle answer given the in-use count.
- The module-level default exports that read environment variables, and `src/config.ts`. This is environment loading. `Number(PORT)` producing NaN is not modelled.
- `close()` in all three wrappers: it only ends the driver's pool or handle.
- PostgreSQL `getPoolStatus`: it copies three counters the driver keeps and the model does not track.
- SQLite `prepare` and the `instance` getter: they hand out the driver's objects unchanged.
- The PostgreSQL wrappers accept a `QueryConfig` object in place of SQL text. Only text is modelled.
- JavaScript numbers are integers here: NaN, fractions and `-0` are not modelled, and SQLite's `bigint` row ids are plain integers.
- `Sqlite.Transaction`: the engine's own BEGIN or COMMIT failing (for example a busy database) is not modelled. Only the callback's success or failure decides the outcome.
- `Sqlite.Batch`: it runs through the same engine transaction, so the engine's own BEGIN or COMMIT failing (for example a busy database) is not modelled either. Only preparing the statement and running each parameter set decide the outcome.
- `Pg.GetInstance`: `new Pool` is taken never to throw. The pool does not connect when it is created.
- `MySql.GetPoolStatus`: the connection's `config` object is modelled as the wrapper's pool options.
- `Lifecycle.Run`: the callback is a function of the data, so the contract cannot say that it is invoked only once.
- `Lifecycle.Run`: when ROLLBACK fails, the code still releases the connection with its transaction open, and a later user of that pooled connection could commit the writes. The pool holds committed data only, so the model treats the data as unchanged and cannot represent this.
- The rest of the application: HTTP routing, the other controllers and services, JWT handling, the upload middleware's disk storage, the exception classes and the deployment configuration.

=== FILE: js.dfy ===
/** The JavaScript values the wrappers pass around untyped (`params?: any`,
    rows, `ssl`, `verbose`), and the two pieces of JavaScript semantics the
    wrappers rely on: truthiness and the `||` operator used for defaults.
    Numbers are modelled as integers (NaN, -0 and fractions are not modelled). */
module Js {
  import opened Results

  datatype Value =
    | Undefined
    | Null
    | Bool(b: bool)
    | Num(n: int)
    | Str(s: string)
    | Arr(elems: seq<Value>)
    | Obj(fields: map<string, Value>)
    | Func(id: nat)   // a function value, such as a logger; only its identity matters

  /** JavaScript truthiness: `undefined`, `null`, `false`, `0` and `""` are falsy. */
  predicate Truthy(v: Value)
  {
    match v
    case Undefined => false
    case Null => false
    case Bool(b) => b
    case Num(n) => n != 0
    case Str(s) => s != ""
    case _ => true
  }

  /** `a || b`: the left operand when it is truthy, otherwise the right one. */
  function Or(a: Value, b: Value): Value
  {
    if Truthy(a) then a else b
  }

  /** An optional numeric field of a configuration object, as a JavaScript value. */
  function OfInt(x: Option<int>): Value
  {
    match x
    case None => Undefined
    case Some(n) => Num(n)
  }

  function OfBool(x: Option<bool>): Value
  {
    match x
    case None => Undefined
    case Some(b) => Bool(b)
  }

  function OfString(x: Option<string>): Value
  {
    match x
    case None => Undefined
    case Some(s) => Str(s)
  }

  /** `config.field || d` for an optional numeric field. */
  function IntOr(x: Option<int>, d: int): (r: int)
    ensures Or(OfInt(x), Num(d)) == Num(r)
    ensures x.Some? && x.value != 0 ==> r == x.value
  {
    match x
    case Some(n) => if n != 0 then n else d
    case None => d
  }

  /** `config.field || d` for an optional boolean field. */
  function BoolOr(x: Option<bool>, d: bool): (r: bool)
    ensures Or(OfBool(x), Bool(d)) == Bool(r)
    ensures d ==> r
  {
    match x
    case Some(b) => b || d
    case None => d
  }

  /** `config.field || d` for an optional string field. */
  function StringOr(x: Option<string>, d: string): (r: string)
    ensures Or(OfString(x), Str(d)) == Str(r)
    ensures x.Some? && x.value != "" ==> r == x.value
  {
    match x
    case Some(s) => if s != "" then s else d
    case None => d
  }
}

=== FILE: lifecycle.dfy ===
/** What the MySQL and PostgreSQL wrappers share: a backend seen as committed
    data plus the number of pooled connections leased out, the life cycle of
    one transaction scope as an explicit state machine, the coordinator that
    drives it (`transaction` in both wrappers), and the in-order execution of
    one statement per parameter set that every `batch` performs.

    The database driver itself is an oracle: each call it answers either
    succeeds with a reply (and, for statements, the data afterwards) or fails
    with an error. */
module Lifecycle {
  import opened Results
  import Js

  /** The backend's data, opaque to the wrappers: rows per table. */
  type Data = map<string, seq<Js.Value>>

  /** Committed data plus the number of connections currently leased from the pool. */
  datatype Pool = Pool(data: Data, inUse: nat)

  /** One statement's answer together with the data as the statement left it. */
  datatype Reply<A> = Reply(answer: A, after: Data)

  /** A wrapper call's result together with the pool it leaves behind. */
  datatype Outcome<T> = Outcome(result: Result<T>, after: Pool)

  /** The answers of a run of statements and the data after the last one. */
  datatype Replies<A> = Replies(answers: seq<A>, after: Data)

  // ---------------------------------------------------------------------------
  // The transaction scope state machine: Idle -> Held -> Began ->
  // (Committed | RolledBack) -> Released. `Held` is a leased connection on
  // which BEGIN has not succeeded; a failing BEGIN rolls back from there.
  // ---------------------------------------------------------------------------

  datatype Phase = Idle | Held | Began | Committed | RolledBack | Released

  /** The observable steps of a scope: leasing the connection, BEGIN, COMMIT,
      the ROLLBACK attempt and handing the connection back. */
  datatype Event = Acquire | Begin | Commit | Rollback | Release

  function Next(p: Phase, e: Event): Option<Phase>
  {
    match (p, e)
    case (Idle, Acquire) => Some(Held)
    case (Held, Begin) => Some(Began)
    case (Held, Rollback) => Some(RolledBack)
    case (Began, Commit) => Some(Committed)
    case (Began, Rollback) => Some(RolledBack)
    case (Committed, Release) => Some(Released)
    case (RolledBack, Release) => Some(Released)
    case _ => None
  }

  /** The phase reached by following `t` from `p`, or `None` if some step is not allowed. */
  function Walk(p: Phase, t: seq<Event>): Option<Phase>
    decreases |t|
  {
    if t == [] then Some(p)
    else match Next(p, t[0])
      case None => None
      case Some(q) => Walk(q, t[1..])
  }

  /** A trace that takes a scope from Idle all the way to Released. */
  predicate Completed(t: seq<Event>)
  {
    Walk(Idle, t) == Some(Released)
  }

  /** How many times `e` occurs in `t`. */
  function Count(t: seq<Event>, e: Event): nat
    decreases |t|
  {
    if t == [] then 0 else (if t[0] == e then 1 else 0) + Count(t[1..], e)
  }

  lemma {:induction false} CountIsMultiplicity(t: seq<Event>, e: Event)
    ensures Count(t, e) == multiset(t)[e]
    decreases |t|
  {
    if t != [] {
      assert t == [t[0]] + t[1..];
      CountIsMultiplicity(t[1..], e);
    }
  }

  lemma DecidedFinishes(p: Phase, t: seq<Event>)
    requires p == Committed || p == RolledBack
    ensures Walk(p, t) == Some(Released) <==> t == [Release]
  {
  }

  lemma {:induction false} BeganFinishes(t: seq<Event>)
    ensures Walk(Began, t) == Some(Released) <==> t == [Commit, Release] || t == [Rollback, Release]
  {
    if t != [] {
      assert t == [t[0]] + t[1..];
      if t[0] == Commit {
        DecidedFinishes(Committed, t[1..]);
      } else if t[0] == Rollback {
        DecidedFinishes(RolledBack, t[1..]);
      }
    }
  }

  lemma {:induction false} HeldFinishes(t: seq<Event>)
    ensures Walk(Held, t) == Some(Released) <==>
      t == [Begin, Commit, Release] || t == [Begin, Rollback, Release] || t == [Rollback, Release]
  {
    if t != [] {
      assert t == [t[0]] + t[1..];
      if t[0] == Begin {
        BeganFinishes(t[1..]);
      } else if t[0] == Rollback {
        DecidedFinishes(RolledBack, t[1..]);
      }
    }
  }

  /** The state machine admits exactly three complete scopes: a committed one,
      one rolled back after a successful BEGIN, and one whose BEGIN failed. */
  lemma {:induction false} CompletedTraces(t: seq<Event>)
    ensures Completed(t) <==>
      || t == [Acquire, Begin, Commit, Release]
      || t == [Acquire, Begin, Rollback, Release]
      || t == [Acquire, Rollback, Release]
  {
    if t != [] {
      assert t == [t[0]] + t[1..];
      if t[0] == Acquire {
        HeldFinishes(t[1..]);
      }
    }
  }

  /** The event counts of the three complete scopes. */
  lemma ScopeCounts(t: seq<Event>)
    requires || t == [Acquire, Begin, Commit, Release]
             || t == [Acquire, Begin, Rollback, Release]
             || t == [Acquire, Rollback, Release]
    ensures Count(t, Acquire) == 1 && Count(t, Release) == 1
    ensures Count(t, Commit) + Count(t, Rollback) == 1
  {
    CountIsMultiplicity(t, Acquire);
    CountIsMultiplicity(t, Release);
    CountIsMultiplicity(t, Commit);
    CountIsMultiplicity(t, Rollback);
    if t == [Acquire, Rollback, Release] {
      assert multiset(t) == multiset{Acquire, Rollback, Release};
    } else {
      assert multiset(t) == multiset{Acquire, Begin, t[2], Release};
    }
  }

  /** Every complete scope leases exactly one connection, hands it back exactly
      once as its last step, and ends in exactly one of COMMIT and ROLLBACK. */
  lemma CompletedReleasesOnce(t: seq<Event>)
    requires Completed(t)
    ensures Count(t, Acquire) == 1 && Count(t, Release) == 1
    ensures t[0] == Acquire && t[|t| - 1] == Release
    ensures Count(t, Commit) + Count(t, Rollback) == 1
  {
    CompletedTraces(t);
    ScopeCounts(t);
  }

  // ---------------------------------------------------------------------------
  // The transaction coordinator
  // ---------------------------------------------------------------------------

  /** The driver's answers to the calls a transaction makes on its connection. */
  datatype Control = Control(
    connect: nat -> Option<Error>,   // leasing a connection, given the in-use count
    begin: Data -> Option<Error>,
    commit: Data -> Option<Error>,   // given the data the unit of work produced
    rollback: Data -> Option<Error>)

  /** What a unit of work returns: its value and the data it leaves in the open transaction. */
  datatype Work<T> = Work(value: T, data: Data)

  /** The protected part of a transaction on its own: BEGIN, then the unit of
      work, then COMMIT, the first failure being the outcome. */
  function Attempt<T>(ctl: Control, work: Data -> Result<Work<T>>, d: Data): Result<Work<T>>
  {
    if ctl.begin(d).Some? then Err(ctl.begin(d).value)
    else match work(d)
      case Err(e) => Err(e)
      case Ok(w) => if ctl.commit(w.data).Some? then Err(ctl.commit(w.data).value) else Ok(w)
  }

  /** Runs `work` in a transaction on a freshly leased connection. Leasing
      happens before the protected part, so a failed lease releases nothing.
      Any failure of BEGIN, the unit of work or COMMIT triggers one ROLLBACK,
      which is not itself protected: when it fails, its error is the one
      thrown. The connection is released on every path after a lease. */
  method Run<T>(pool: Pool, ctl: Control, work: Data -> Result<Work<T>>)
    returns (r: Result<T>, after: Pool, trace: seq<Event>)
    ensures ctl.connect(pool.inUse).Some? ==>
      r == Err(ctl.connect(pool.inUse).value) && after == pool && trace == []
    ensures ctl.connect(pool.inUse).None? ==> Completed(trace)
    ensures ctl.connect(pool.inUse).None? ==> (Begin in trace <==> ctl.begin(pool.data).None?)
    ensures after.inUse == pool.inUse
    ensures Count(trace, Release) == Count(trace, Acquire) <= 1
    ensures r.Ok? <==> ctl.connect(pool.inUse).None? && Attempt(ctl, work, pool.data).Ok?
    ensures r.Ok? ==>
      && r.value == Attempt(ctl, work, pool.data).value.value
      && after.data == Attempt(ctl, work, pool.data).value.data
      && trace == [Acquire, Begin, Commit, Release]
    ensures r.Err? ==> after.data == pool.data
    ensures Rollback in trace <==> ctl.connect(pool.inUse).None? && r.Err?
    ensures Rollback in trace ==>
      r.error == (if ctl.rollback(pool.data).Some? then ctl.rollback(pool.data).value
                  else Attempt(ctl, work, pool.data).error)
  {
    var lease := ctl.connect(pool.inUse);
    if lease.Some? {
      return Err(lease.value), pool, [];
    }
    after := pool.(inUse := pool.inUse + 1);
    trace := [Acquire];
    // try { BEGIN; work; COMMIT }
    var failure: Option<Error> := None;
    var began := ctl.begin(after.data);
    if began.Some? {
      failure := began;
    } else {
      trace := trace + [Begin];
      var done := work(after.data);
      if done.Err? {
        failure := Some(done.error);
      } else {
        var committed := ctl.commit(done.value.data);
        if committed.Some? {
          failure := committed;
        } else {
          trace := trace + [Commit];
          after := after.(data := done.value.data);
          r := Ok(done.value.value);
        }
      }
    }
    // catch { ROLLBACK; rethrow }
    if failure.Some? {
      trace := trace + [Rollback];
      var rolledBack := ctl.rollback(after.data);
      r := if rolledBack.Some? then Err(rolledBack.value) else Err(failure.value);
    }
    // finally { release }
    trace := trace + [Release];
    after := after.(inUse := after.inUse - 1);
    CompletedTraces(trace);
    CompletedReleasesOnce(trace);
  }

  // ---------------------------------------------------------------------------
  // Statements run in order, as every `batch` loop does
  // ---------------------------------------------------------------------------

  /** Runs `step` once per parameter set, in order, each on the data the
      previous one left, stopping at the first failure. */
  function RunAll<P, A>(step: (Data, P) -> Result<Reply<A>>, ps: seq<P>, d: Data): (r: Result<Replies<A>>)
    ensures r.Ok? ==> |r.value.answers| == |ps|
    ensures ps != [] && step(d, ps[0]).Err? ==> r == Err(step(d, ps[0]).error)
    decreases |ps|
  {
    if ps == [] then Ok(Replies([], d))
    else match step(d, ps[0])
      case Err(e) => Err(e)
      case Ok(first) =>
        match RunAll(step, ps[1..], first.after)
        case Err(e) => Err(e)
        case Ok(rest) => Ok(Replies([first.answer] + rest.answers, rest.after))
  }

  /** Running `ps` and then `qs` is running `ps + qs`: the second run starts
      from the data the first left, its answers follow the first's, and a
      failure anywhere is the failure of the whole. */
  lemma {:induction false} RunAllAppend<P, A>(step: (Data, P) -> Result<Reply<A>>, ps: seq<P>, qs: seq<P>, d: Data)
    ensures RunAll(step, ps + qs, d) ==
      match RunAll(step, ps, d)
      case Err(e) => Err(e)
      case Ok(first) =>
        match RunAll(step, qs, first.after)
        case Err(e) => Err(e)
        case Ok(rest) => Ok(Replies(first.answers + rest.answers, rest.after))
    decreases |ps|
  {
    if ps == [] {
      assert ps + qs == qs;
      match RunAll(step, qs, d)
      case Err(_) =>
      case Ok(rest) => assert [] + rest.answers == rest.answers;
    } else {
      assert (ps + qs)[0] == ps[0] && (ps + qs)[1..] == ps[1..] + qs;
      match step(d, ps[0])
      case Err(_) =>
      case Ok(head) =>
        RunAllAppend(step, ps[1..], qs, head.after);
        match RunAll(step, ps[1..], head.after)
        case Err(_) =>
        case Ok(mid) =>
          match RunAll(step, qs, mid.after)
          case Err(_) =>
          case Ok(rest) =>
            assert [head.answer] + (mid.answers + rest.answers) == ([head.answer] + mid.answers) + rest.answers;
    }
  }

  /** A single statement: its answer alone, or its error. */
  lemma RunAllOne<P, A>(step: (Data, P) -> Result<Reply<A>>, p: P, d: Data)
    ensures RunAll(step, [p], d) ==
      match step(d, p)
      case Err(e) => Err(e)
      case Ok(reply) => Ok(Replies([reply.answer], reply.after))
  {
    assert [p][1..] == [];
    match step(d, p)
    case Err(_) =>
    case Ok(reply) =>
      assert RunAll(step, [], reply.after) == Ok(Replies([], reply.after));
      assert [reply.answer] + [] == [reply.answer];
  }
}

=== FILE: mysql.dfy ===
/** The MySQL wrapper: a singleton over a connection pool whose `query` and
    `execute` the pool runs on a connection of its own (leased and returned
    inside the driver), and whose `transaction`, `batch` and `getPoolStatus`
    lease a connection explicitly. */
module MySql {
  import opened Results
  import Js
  import opened Lifecycle
  import Singleton

  // ---------------------------------------------------------------------------
  // Configuration and the singleton
  // ---------------------------------------------------------------------------

  /** The constructor's configuration; optional fields are `None` when absent. */
  datatype Config = Config(
    host: string, port: int, user: string, password: string, database: string,
    connectionLimit: Option<int>, queueLimit: Option<int>, waitForConnections: Option<bool>,
    connectTimeout: Option<int>, timezone: Option<string>, ssl: Js.Value)

  /** The options the pool is created with. */
  datatype PoolOptions = PoolOptions(
    host: string, port: int, user: string, password: string, database: string,
    connectionLimit: int, queueLimit: int, waitForConnections: bool,
    connectTimeout: int, timezone: string, ssl: Js.Value, dateStrings: bool)

  datatype Wrapper = Wrapper(options: PoolOptions)

  /** Each optional field falls back to its default when it is falsy. The
      default of `waitForConnections` is `true` and is combined with `||`, so
      a configured `false` is lost: the pool always waits for a connection. */
  function OptionsFor(c: Config): (o: PoolOptions)
    ensures o.host == c.host && o.port == c.port && o.user == c.user
    ensures o.password == c.password && o.database == c.database
    ensures Js.Truthy(Js.OfInt(c.connectionLimit)) ==> o.connectionLimit == c.connectionLimit.value
    ensures !Js.Truthy(Js.OfInt(c.connectionLimit)) ==> o.connectionLimit == 10
    ensures Js.Truthy(Js.OfInt(c.queueLimit)) ==> o.queueLimit == c.queueLimit.value
    ensures !Js.Truthy(Js.OfInt(c.queueLimit)) ==> o.queueLimit == 0
    ensures Js.Truthy(Js.OfInt(c.connectTimeout)) ==> o.connectTimeout == c.connectTimeout.value
    ensures !Js.Truthy(Js.OfInt(c.connectTimeout)) ==> o.connectTimeout == 10000
    ensures Js.Truthy(Js.OfString(c.timezone)) ==> o.timezone == c.timezone.value
    ensures !Js.Truthy(Js.OfString(c.timezone)) ==> o.timezone == "Z"
    ensures o.ssl == (if Js.Truthy(c.ssl) then c.ssl else Js.Undefined)
    ensures o.waitForConnections
    ensures o.dateStrings
  {
    PoolOptions(
      c.host, c.port, c.user, c.password, c.database,
      Js.IntOr(c.connectionLimit, 10),
      Js.IntOr(c.queueLimit, 0),
      Js.BoolOr(c.waitForConnections, true),
      Js.IntOr(c.connectTimeout, 10000),
      Js.StringOr(c.timezone, "Z"),
      Js.Or(c.ssl, Js.Undefined),
      true)
  }

  /** The private constructor; `createPool` is the driver's answer to creating
      the pool, whose failure is rethrown. */
  function Create(createPool: PoolOptions -> Option<Error>, c: Config): Result<Wrapper>
  {
    match createPool(OptionsFor(c))
    case Some(e) => Err(e)
    case None => Ok(Wrapper(OptionsFor(c)))
  }

  const MissingConfig := "MySQL configuration required"

  function GetInstance(slot: Option<Wrapper>, config: Option<Config>, createPool: PoolOptions -> Option<Error>)
    : (g: Singleton.Lookup<Wrapper>)
    ensures slot.Some? ==> g.result == Ok(slot.value) && g.slot == slot
    ensures slot.None? && config.None? ==> g.result == Err(Error("MySQL configuration required"))
    ensures slot.None? && config.Some? ==> (g.result.Ok? <==> createPool(OptionsFor(config.value)).None?)
    ensures slot.None? && config.Some? && createPool(OptionsFor(config.value)).Some? ==>
      g.result == Err(createPool(OptionsFor(config.value)).value)
    ensures slot.None? && g.result.Ok? ==> g.result.value.options == OptionsFor(config.value)
    ensures g.result.Ok? ==> g.slot == Some(g.result.value)
    ensures g.result.Err? ==> g.slot == None
  {
    Singleton.GetInstance(slot, config, c => Create(createPool, c), MissingConfig)
  }

  // ---------------------------------------------------------------------------
  // The driver
  // ---------------------------------------------------------------------------

  /** The header a write statement answers with. */
  datatype Header = Header(affectedRows: int, insertId: int)

  /** What the driver answers a statement with, through `query` as through
      `execute`: the result header of a write (or of a `CALL` whose procedure
      returns no result set), or an array of rows. */
  datatype ExecAnswer = WriteHeader(header: Header) | RowSet(rows: seq<Js.Value>)

  /** The driver, as an oracle. `query` and `execute` answer with the first
      element of the driver's `[result, fields]` pair; `threadId` is the
      leased connection's thread id, which may be null. */
  datatype Driver = Driver(
    query: (Data, string, Js.Value) -> Result<Reply<ExecAnswer>>,
    execute: (Data, string, Js.Value) -> Result<Reply<ExecAnswer>>,
    control: Control,
    threadId: Option<int>)

  /** The wrapper's result record; `affectedRows` and `insertId` are optional. */
  datatype QueryResult = QueryResult(rows: seq<Js.Value>, affectedRows: Option<int>, insertId: Option<int>)

  // ---------------------------------------------------------------------------
  // query, queryOne, execute
  // ---------------------------------------------------------------------------

  /** `query`: the driver's answer passed on untouched; outside a transaction
      a statement's effects are committed as it completes. */
  function Query(st: Pool, driver: Driver, sql: string, params: Js.Value): (o: Outcome<ExecAnswer>)
    ensures o.result.Ok? <==> driver.query(st.data, sql, params).Ok?
    ensures o.result.Ok? ==>
      && o.result.value == driver.query(st.data, sql, params).value.answer
      && o.after == st.(data := driver.query(st.data, sql, params).value.after)
    ensures o.result.Err? ==> o.result.error == driver.query(st.data, sql, params).error && o.after == st
  {
    match driver.query(st.data, sql, params)
    case Err(e) => Outcome(Err(e), st)
    case Ok(reply) => Outcome(Ok(reply.answer), st.(data := reply.after))
  }

  /** `rows.length > 0 ? rows[0] : null`: a result header has no `length`,
      and `undefined > 0` is false, so it gives null like an empty array. */
  function FirstRow(a: ExecAnswer): Js.Value
  {
    if a.RowSet? && |a.rows| > 0 then a.rows[0] else Js.Null
  }

  /** `queryOne`: the first row `query` would return, or null when there is
      none; an empty result is not an error. */
  function QueryOne(st: Pool, driver: Driver, sql: string, params: Js.Value): (o: Outcome<Js.Value>)
    ensures o.after == Query(st, driver, sql, params).after
    ensures o.result.Err? <==> Query(st, driver, sql, params).result.Err?
    ensures o.result.Err? ==> o.result.error == Query(st, driver, sql, params).result.error
    ensures Query(st, driver, sql, params).result == Ok(RowSet([])) ==> o.result == Ok(Js.Null)
    ensures Query(st, driver, sql, params).result.Ok? && Query(st, driver, sql, params).result.value.WriteHeader? ==>
      o.result == Ok(Js.Null)
    ensures o.result.Ok? && Query(st, driver, sql, params).result.value.RowSet?
                         && Query(st, driver, sql, params).result.value.rows != [] ==>
      o.result.value == Query(st, driver, sql, params).result.value.rows[0]
  {
    match driver.query(st.data, sql, params)
    case Err(e) => Outcome(Err(e), st)
    case Ok(reply) => Outcome(Ok(FirstRow(reply.answer)), st.(data := reply.after))
  }

  /** How `execute` reshapes the driver's answer: a write header keeps its two
      numbers and has no rows; a row set reports zero affected rows and no id. */
  function Shape(a: ExecAnswer): QueryResult
  {
    match a
    case WriteHeader(h) => QueryResult([], Some(h.affectedRows), Some(h.insertId))
    case RowSet(rows) => QueryResult(rows, Some(0), None)
  }

  /** Reads the driver's answer back from a shaped result: the presence of
      `insertId` tells a write header from a row set. */
  function Unshape(q: QueryResult): ExecAnswer
  {
    if q.insertId.Some? then WriteHeader(Header(if q.affectedRows.Some? then q.affectedRows.value else 0, q.insertId.value))
    else RowSet(q.rows)
  }

  /** Shaping loses nothing: header and row-set answers stay distinguishable
      and every number is copied verbatim. */
  lemma ShapeRoundTrip(a: ExecAnswer)
    ensures Unshape(Shape(a)) == a
    ensures Shape(a).insertId.Some? <==> a.WriteHeader?
    ensures Shape(a).affectedRows.Some?
  {
  }

  /** `execute`: the driver's answer, shaped. */
  function Execute(st: Pool, driver: Driver, sql: string, params: Js.Value): (o: Outcome<QueryResult>)
    ensures o.result.Err? ==> o.after == st && driver.execute(st.data, sql, params).Err?
    ensures o.result.Err? ==> o.result.error == driver.execute(st.data, sql, params).error
    ensures o.result.Ok? ==>
      && driver.execute(st.data, sql, params).Ok?
      && Unshape(o.result.value) == driver.execute(st.data, sql, params).value.answer
      && o.after == st.(data := driver.execute(st.data, sql, params).value.after)
    ensures o.result.Ok? && driver.execute(st.data, sql, params).value.answer.WriteHeader? ==>
      var h := driver.execute(st.data, sql, params).value.answer.header;
      o.result.value == QueryResult([], Some(h.affectedRows), Some(h.insertId))
    ensures o.result.Ok? && driver.execute(st.data, sql, params).value.answer.RowSet? ==>
      o.result.value == QueryResult(driver.execute(st.data, sql, params).value.answer.rows, Some(0), None)
  {
    match driver.execute(st.data, sql, params)
    case Err(e) => Outcome(Err(e), st)
    case Ok(reply) => ShapeRoundTrip(reply.answer); Outcome(Ok(Shape(reply.answer)), st.(data := reply.after))
  }

  // ---------------------------------------------------------------------------
  // batch
  // ---------------------------------------------------------------------------

  /** One `connection.execute(sql, params)` of the batch loop. */
  function ExecStep(driver: Driver, sql: string): (Data, Js.Value) -> Result<Reply<ExecAnswer>>
  {
    (d: Data, params: Js.Value) => driver.execute(d, sql, params)
  }

  /** Affected rows summed over the write headers; row sets add nothing. */
  function AffectedSum(answers: seq<ExecAnswer>): int
    decreases |answers|
  {
    if answers == [] then 0
    else (if answers[0].WriteHeader? then answers[0].header.affectedRows else 0) + AffectedSum(answers[1..])
  }

  predicate HasPositiveId(a: ExecAnswer)
  {
    a.WriteHeader? && a.header.insertId > 0
  }

  /** The insert id of the last write header whose id is positive, or 0. */
  function LastInsertId(answers: seq<ExecAnswer>): int
    decreases |answers|
  {
    if answers == [] then 0
    else if HasPositiveId(answers[|answers| - 1]) then answers[|answers| - 1].header.insertId
    else LastInsertId(answers[..|answers| - 1])
  }

  /** `LastInsertId` is never negative, and it is 0 exactly when no statement
      produced a positive id. */
  lemma {:induction false} LastInsertIdZero(answers: seq<ExecAnswer>)
    ensures LastInsertId(answers) >= 0
    ensures LastInsertId(answers) == 0 <==> forall i :: 0 <= i < |answers| ==> !HasPositiveId(answers[i])
    decreases |answers|
  {
    if answers != [] {
      var n := |answers| - 1;
      LastInsertIdZero(answers[..n]);
      assert forall i :: 0 <= i < n ==> answers[..n][i] == answers[i];
    }
  }

  /** `LastInsertId` is 0 exactly when no statement produced a positive id,
      and otherwise it is the id of the last statement that did. */
  lemma {:induction false} LastInsertIdIsLast(answers: seq<ExecAnswer>)
    ensures LastInsertId(answers) >= 0
    ensures LastInsertId(answers) == 0 <==> forall i :: 0 <= i < |answers| ==> !HasPositiveId(answers[i])
    ensures LastInsertId(answers) != 0 ==>
      exists i :: 0 <= i < |answers| && HasPositiveId(answers[i])
        && answers[i].header.insertId == LastInsertId(answers)
        && forall j :: i < j < |answers| ==> !HasPositiveId(answers[j])
    decreases |answers|
  {
    LastInsertIdZero(answers);
    if answers != [] {
      var n := |answers| - 1;
      if HasPositiveId(answers[n]) {
        assert answers[n].header.insertId == LastInsertId(answers);
      } else if LastInsertId(answers) != 0 {
        var init := answers[..n];
        assert LastInsertId(init) == LastInsertId(answers);
        LastInsertIdIsLast(init);
        var i :| 0 <= i < n && HasPositiveId(init[i]) && init[i].header.insertId == LastInsertId(init)
          && forall j :: i < j < n ==> !HasPositiveId(init[j]);
        assert init[i] == answers[i];
        assert forall j :: i < j < n ==> init[j] == answers[j];
      }
    }
  }

  /** Seen from the front, the last positive id of `[a] + rest` is the one in
      `rest` if there is any, and otherwise `a`'s own. */
  lemma {:induction false} LastInsertIdCons(a: ExecAnswer, rest: seq<ExecAnswer>)
    ensures LastInsertId([a] + rest) ==
      (if LastInsertId(rest) > 0 then LastInsertId(rest) else if HasPositiveId(a) then a.header.insertId else 0)
    decreases |rest|
  {
    LastInsertIdIsLast(rest);
    if rest != [] {
      var n := |rest| - 1;
      assert ([a] + rest)[..|rest|] == [a] + rest[..n];
      if !HasPositiveId(rest[n]) {
        LastInsertIdCons(a, rest[..n]);
      }
    } else {
      assert [a] + rest == [a];
      assert [a][..0] == [];
    }
  }

  /** The callback `batch` hands to `transaction`: the `for` loop with its two
      accumulators, stopping at the first statement that throws. */
  function BatchLoop(driver: Driver, sql: string, ps: seq<Js.Value>, d: Data, total: int, lastId: int)
    : Result<Work<QueryResult>>
    decreases |ps|
  {
    if ps == [] then Ok(Work(QueryResult([], Some(total), Some(lastId)), d))
    else match driver.execute(d, sql, ps[0])
      case Err(e) => Err(e)
      case Ok(reply) =>
        var a := reply.answer;
        BatchLoop(driver, sql, ps[1..], reply.after,
          if a.WriteHeader? then total + a.header.affectedRows else total,
          if HasPositiveId(a) then a.header.insertId else lastId)
  }

  /** What the loop should produce from the answers of the statements run in
      order, starting from the accumulators `total` and `lastId`. */
  function Folded(total: int, lastId: int, run: Result<Replies<ExecAnswer>>): Result<Work<QueryResult>>
  {
    match run
    case Err(e) => Err(e)
    case Ok(rs) =>
      Ok(Work(QueryResult([], Some(total + AffectedSum(rs.answers)),
              Some(if LastInsertId(rs.answers) > 0 then LastInsertId(rs.answers) else lastId)),
         rs.after))
  }

  /** One turn of the loop: folding `a` into the accumulators first and then
      the rest gives what folding `[a] + rest` gives. */
  lemma FoldedCons(a: ExecAnswer, rest: Replies<ExecAnswer>, total: int, lastId: int)
    ensures Folded(if a.WriteHeader? then total + a.header.affectedRows else total,
                   if HasPositiveId(a) then a.header.insertId else lastId, Ok(rest))
         == Folded(total, lastId, Ok(Replies([a] + rest.answers, rest.after)))
  {
    assert ([a] + rest.answers)[1..] == rest.answers;
    LastInsertIdCons(a, rest.answers);
  }

  /** The loop computes the two folds over the answers of the statements run
      in order, and fails exactly when one of them fails. */
  lemma {:induction false} BatchLoopFolds(driver: Driver, sql: string, ps: seq<Js.Value>, d: Data, total: int, lastId: int)
    ensures BatchLoop(driver, sql, ps, d, total, lastId) == Folded(total, lastId, RunAll(ExecStep(driver, sql), ps, d))
    decreases |ps|
  {
    if ps != [] {
      var step := ExecStep(driver, sql);
      assert step(d, ps[0]) == driver.execute(d, sql, ps[0]);
      var first := driver.execute(d, sql, ps[0]);
      if first.Ok? {
        var a := first.value.answer;
        var total' := if a.WriteHeader? then total + a.header.affectedRows else total;
        var last' := if HasPositiveId(a) then a.header.insertId else lastId;
        BatchLoopFolds(driver, sql, ps[1..], first.value.after, total', last');
        var rest := RunAll(step, ps[1..], first.value.after);
        if rest.Ok? {
          assert RunAll(step, ps, d) == Ok(Replies([a] + rest.value.answers, rest.value.after));
          FoldedCons(a, rest.value, total, lastId);
        }
      }
    }
  }

  /** The batch's statements, one per parameter set, run in order. */
  function Executed(driver: Driver, sql: string, ps: seq<Js.Value>, d: Data): Result<Replies<ExecAnswer>>
  {
    RunAll(ExecStep(driver, sql), ps, d)
  }

  /** The first failure of a batch's protected part: BEGIN, then each
      statement in order, then COMMIT; `None` when all of them succeed. */
  function BatchFailure(driver: Driver, sql: string, ps: seq<Js.Value>, d: Data): Option<Error>
  {
    if driver.control.begin(d).Some? then driver.control.begin(d)
    else match Executed(driver, sql, ps, d)
      case Err(e) => Some(e)
      case Ok(rs) => driver.control.commit(rs.after)
  }

  /** `batch`: every parameter set in order inside one transaction. The
      result sums the affected rows and keeps the last positive insert id; any
      failure rolls the whole batch back and is rethrown, unless ROLLBACK's
      own error replaces it. */
  method Batch(st: Pool, driver: Driver, sql: string, paramsArray: seq<Js.Value>)
    returns (r: Result<QueryResult>, after: Pool, trace: seq<Event>)
    ensures after.inUse == st.inUse
    ensures Count(trace, Release) == Count(trace, Acquire) <= 1
    ensures driver.control.connect(st.inUse).Some? ==> r == Err(driver.control.connect(st.inUse).value) && trace == []
    ensures driver.control.connect(st.inUse).None? ==> Completed(trace)
    ensures driver.control.connect(st.inUse).None? ==> (Begin in trace <==> driver.control.begin(st.data).None?)
    ensures r.Ok? <==> driver.control.connect(st.inUse).None? && BatchFailure(driver, sql, paramsArray, st.data).None?
    ensures r.Ok? ==>
      && Executed(driver, sql, paramsArray, st.data).Ok?
      && r.value == QueryResult([], Some(AffectedSum(Executed(driver, sql, paramsArray, st.data).value.answers)), Some(LastInsertId(Executed(driver, sql, paramsArray, st.data).value.answers)))
      && after.data == Executed(driver, sql, paramsArray, st.data).value.after
    ensures r.Err? ==> after.data == st.data
    ensures Rollback in trace <==> driver.control.connect(st.inUse).None? && r.Err?
    ensures Rollback in trace ==>
      r.error == (if driver.control.rollback(st.data).Some? then driver.control.rollback(st.data).value else BatchFailure(driver, sql, paramsArray, st.data).value)
  {
    BatchLoopFolds(driver, sql, paramsArray, st.data, 0, 0);
    LastInsertIdIsLast(if RunAll(ExecStep(driver, sql), paramsArray, st.data).Ok?
                       then RunAll(ExecStep(driver, sql), paramsArray, st.data).value.answers else []);
    r, after, trace := Run(st, driver.control, d => BatchLoop(driver, sql, paramsArray, d, 0, 0));
  }

  // ---------------------------------------------------------------------------
  // callProcedure
  // ---------------------------------------------------------------------------

  /** `parts.join(sep)`. */
  function Join(parts: seq<string>, sep: string): string
    decreases |parts|
  {
    if parts == [] then ""
    else if |parts| == 1 then parts[0]
    else parts[0] + sep + Join(parts[1..], sep)
  }

  /** `params.map(() => "?")` for `n` parameters. */
  function Marks(n: nat): (m: seq<string>)
    ensures |m| == n
  {
    if n == 0 then [] else ["?"] + Marks(n - 1)
  }

  function Placeholders(n: nat): string
  {
    Join(Marks(n), ",")
  }

  /** The placeholder list for `n` parameters is `?` and `,` alternating,
      starting and ending with `?`: `2n - 1` characters, or none when `n` is 0. */
  lemma {:induction false} PlaceholdersShape(n: nat)
    ensures |Placeholders(n)| == (if n == 0 then 0 else 2 * n - 1)
    ensures forall i :: 0 <= i < |Placeholders(n)| ==> Placeholders(n)[i] == (if i % 2 == 0 then '?' else ',')
  {
    if n >= 2 {
      PlaceholdersShape(n - 1);
      assert Marks(n)[1..] == Marks(n - 1);
      assert Placeholders(n) == "?" + "," + Placeholders(n - 1);
    }
  }

  /** The number of `?` placeholders in a string. */
  function Marked(s: string): nat
    decreases |s|
  {
    if s == "" then 0 else (if s[0] == '?' then 1 else 0) + Marked(s[1..])
  }

  /** The placeholder list binds exactly one parameter per element of `params`. */
  lemma {:induction false} PlaceholdersCount(n: nat)
    ensures Marked(Placeholders(n)) == n
  {
    if n == 1 {
      assert Placeholders(1) == "?";
    } else if n >= 2 {
      PlaceholdersCount(n - 1);
      assert Marks(n)[1..] == Marks(n - 1);
      var s := Placeholders(n);
      assert s == "?" + "," + Placeholders(n - 1);
      assert s[1..] == "," + Placeholders(n - 1);
      assert s[1..][1..] == Placeholders(n - 1);
    }
  }

  function CallSql(name: string, n: nat): string
  {
    "CALL " + name + "(" + Placeholders(n) + ")"
  }

  /** The statement `callProcedure` sends: the name followed by one
      placeholder per parameter, in parentheses. */
  lemma CallSqlShape(name: string, n: nat)
    ensures CallSql(name, n)[..5 + |name|] == "CALL " + name
    ensures CallSql(name, n)[5 + |name|..] == "(" + Placeholders(n) + ")"
    ensures Marked(CallSql(name, n)[5 + |name|..]) == n
  {
    var tail := "(" + Placeholders(n) + ")";
    assert CallSql(name, n) == ("CALL " + name) + tail;
    PlaceholdersCount(n);
    MarkedAppend("(", Placeholders(n) + ")");
    MarkedAppend(Placeholders(n), ")");
    assert tail == "(" + (Placeholders(n) + ")");
  }

  lemma {:induction false} MarkedAppend(a: string, b: string)
    ensures Marked(a + b) == Marked(a) + Marked(b)
    decreases |a|
  {
    if a != "" {
      assert (a + b)[1..] == a[1..] + b;
      MarkedAppend(a[1..], b);
    } else {
      assert a + b == b;
    }
  }

  /** `Array.isArray(rows[0]) ? rows[0] : rows`: the first result set when
      the answer starts with one, otherwise the answer as it came, a result
      header included (its `[0]` is undefined). */
  function FirstResultSet(a: ExecAnswer): ExecAnswer
  {
    if a.RowSet? && |a.rows| > 0 && a.rows[0].Arr? then RowSet(a.rows[0].elems) else a
  }

  /** `callProcedure(name, params = [])`: the first result set when the
      procedure answered with several, otherwise the answer as it came. */
  function CallProcedure(st: Pool, driver: Driver, name: string, params: Option<seq<Js.Value>>)
    : (o: Outcome<ExecAnswer>)
    ensures var ps := if params.Some? then params.value else [];
      var q := Query(st, driver, CallSql(name, |ps|), Js.Arr(ps));
      && o.after == q.after
      && (o.result.Err? <==> q.result.Err?)
      && (o.result.Err? ==> o.result == q.result)
      && (o.result.Ok? && q.result.value.RowSet? && q.result.value.rows != [] && q.result.value.rows[0].Arr? ==>
            o.result.value == RowSet(q.result.value.rows[0].elems))
      && (o.result.Ok? && q.result.value.RowSet? && (q.result.value.rows == [] || !q.result.value.rows[0].Arr?) ==>
            o.result == q.result)
      && (o.result.Ok? && q.result.value.WriteHeader? ==> o.result == q.result)
  {
    var ps := if params.Some? then params.value else [];
    match driver.query(st.data, CallSql(name, |ps|), Js.Arr(ps))
    case Err(e) => Outcome(Err(e), st)
    case Ok(reply) => Outcome(Ok(FirstResultSet(reply.answer)), st.(data := reply.after))
  }

  // ---------------------------------------------------------------------------
  // getPoolStatus
  // ---------------------------------------------------------------------------

  datatype PoolStatus = PoolStatus(threadId: int, config: PoolOptions)

  /** `getPoolStatus`: leases a connection (a failed lease releases nothing),
      reads its thread id, null read as 0, and releases it in `finally`. */
  method GetPoolStatus(st: Pool, driver: Driver, w: Wrapper)
    returns (r: Result<PoolStatus>, after: Pool, trace: seq<Event>)
    ensures after == st
    ensures driver.control.connect(st.inUse).Some? ==>
      r == Err(driver.control.connect(st.inUse).value) && trace == []
    ensures driver.control.connect(st.inUse).None? ==>
      r.Ok? && trace == [Acquire, Release] && r.value.config == w.options
    ensures r.Ok? && driver.threadId.Some? && driver.threadId.value != 0 ==> r.value.threadId == driver.threadId.value
    ensures r.Ok? && (driver.threadId.None? || driver.threadId.value == 0) ==> r.value.threadId == 0
  {
    var lease := driver.control.connect(st.inUse);
    if lease.Some? {
      return Err(lease.value), st, [];
    }
    after := st.(inUse := st.inUse + 1);
    trace := [Acquire];
    r := Ok(PoolStatus(Js.IntOr(driver.threadId, 0), w.options));
    trace := trace + [Release];
    after := after.(inUse := after.inUse - 1);
  }
}

=== FILE: pg.dfy ===
/** The PostgreSQL wrapper: a singleton over a connection pool. Unlike the
    MySQL wrapper, every call leases a client explicitly, and BEGIN, COMMIT
    and ROLLBACK are ordinary statements sent through the client. */
module Pg {
  import opened Results
  import Js
  import opened Lifecycle
  import Singleton

  // ---------------------------------------------------------------------------
  // Configuration and the singleton
  // ---------------------------------------------------------------------------

  datatype Config = Config(
    host: string, port: int, user: string, password: string, database: string,
    max: Option<int>, idleTimeoutMillis: Option<int>, connectionTimeoutMillis: Option<int>,
    ssl: Js.Value)

  /** The options the pool is created with: the whole configuration, with the
      three pool sizes overridden. */
  datatype PoolOptions = PoolOptions(
    host: string, port: int, user: string, password: string, database: string, ssl: Js.Value,
    max: int, idleTimeoutMillis: int, connectionTimeoutMillis: int)

  datatype Wrapper = Wrapper(options: PoolOptions)

  /** The configuration spread into the options, each pool setting falling
      back to its default when it is falsy. */
  function OptionsFor(c: Config): (o: PoolOptions)
    ensures o.host == c.host && o.port == c.port && o.user == c.user
    ensures o.password == c.password && o.database == c.database && o.ssl == c.ssl
    ensures Js.Truthy(Js.OfInt(c.max)) ==> o.max == c.max.value
    ensures !Js.Truthy(Js.OfInt(c.max)) ==> o.max == 20
    ensures Js.Truthy(Js.OfInt(c.idleTimeoutMillis)) ==> o.idleTimeoutMillis == c.idleTimeoutMillis.value
    ensures !Js.Truthy(Js.OfInt(c.idleTimeoutMillis)) ==> o.idleTimeoutMillis == 30000
    ensures Js.Truthy(Js.OfInt(c.connectionTimeoutMillis)) ==> o.connectionTimeoutMillis == c.connectionTimeoutMillis.value
    ensures !Js.Truthy(Js.OfInt(c.connectionTimeoutMillis)) ==> o.connectionTimeoutMillis == 10000
  {
    PoolOptions(
      c.host, c.port, c.user, c.password, c.database, c.ssl,
      Js.IntOr(c.max, 20),
      Js.IntOr(c.idleTimeoutMillis, 30000),
      Js.IntOr(c.connectionTimeoutMillis, 10000))
  }

  /** The private constructor: creating the pool does not connect. */
  function Create(c: Config): Result<Wrapper>
  {
    Ok(Wrapper(OptionsFor(c)))
  }

  function GetInstance(slot: Option<Wrapper>, config: Option<Config>): (g: Singleton.Lookup<Wrapper>)
    ensures slot.Some? ==> g.result == Ok(slot.value) && g.slot == slot
    ensures slot.None? && config.None? ==> g.result == Err(Error("PostgreSQL configuration required"))
    ensures slot.None? && config.Some? ==> g.result == Ok(Wrapper(OptionsFor(config.value)))
    ensures g.result.Ok? ==> g.slot == Some(g.result.value)
    ensures g.result.Err? ==> g.slot == None
  {
    Singleton.GetInstance(slot, config, Create, "PostgreSQL configuration required")
  }

  // ---------------------------------------------------------------------------
  // The driver
  // ---------------------------------------------------------------------------

  /** A query's answer; `rowCount` is null for statements that report none. */
  datatype Answer = Answer(rows: seq<Js.Value>, rowCount: Option<int>)

  /** The driver, as an oracle: leasing a client, given the in-use count, and
      running a statement with its values on a leased client. */
  datatype Driver = Driver(
    connect: nat -> Option<Error>,
    query: (Data, string, Js.Value) -> Result<Reply<Answer>>)

  /** The transaction calls, sent as plain statements without values. */
  function ControlOf(driver: Driver): Control
  {
    Control(
      driver.connect,
      d => ErrorOf(driver.query(d, "BEGIN", Js.Undefined)),
      d => ErrorOf(driver.query(d, "COMMIT", Js.Undefined)),
      d => ErrorOf(driver.query(d, "ROLLBACK", Js.Undefined)))
  }

  // ---------------------------------------------------------------------------
  // query, queryOne, execute: lease, run, release in `finally`
  // ---------------------------------------------------------------------------

  /** The part `query`, `queryOne` and `execute` share: the client is leased
      before the `try`, so a failed lease throws with nothing to release;
      otherwise the statement runs and the client is released on success and
      on error alike, the statement's own error being rethrown. */
  method WithClient(st: Pool, driver: Driver, q: string, values: Js.Value)
    returns (r: Result<Answer>, after: Pool, trace: seq<Event>)
    ensures driver.connect(st.inUse).Some? ==>
      r == Err(driver.connect(st.inUse).value) && after == st && trace == []
    ensures driver.connect(st.inUse).None? ==> trace == [Acquire, Release]
    ensures after.inUse == st.inUse
    ensures Count(trace, Release) == Count(trace, Acquire) <= 1
    ensures r.Ok? <==> driver.connect(st.inUse).None? && driver.query(st.data, q, values).Ok?
    ensures driver.connect(st.inUse).None? && driver.query(st.data, q, values).Err? ==>
      r == Err(driver.query(st.data, q, values).error) && after == st
    ensures r.Ok? ==>
      && driver.query(st.data, q, values).Ok?
      && r.value == driver.query(st.data, q, values).value.answer
      && after.data == driver.query(st.data, q, values).value.after
  {
    var lease := driver.connect(st.inUse);
    if lease.Some? {
      return Err(lease.value), st, [];
    }
    after := st.(inUse := st.inUse + 1);
    trace := [Acquire];
    var answer := driver.query(after.data, q, values);
    if answer.Err? {
      r := Err(answer.error);
    } else {
      r := Ok(answer.value.answer);
      after := after.(data := answer.value.after);
    }
    trace := trace + [Release];
    after := after.(inUse := after.inUse - 1);
    CountIsMultiplicity(trace, Acquire);
    CountIsMultiplicity(trace, Release);
  }

  /** `query`: the rows of the answer. */
  method Query(st: Pool, driver: Driver, q: string, values: Js.Value)
    returns (r: Result<seq<Js.Value>>, after: Pool, trace: seq<Event>)
    ensures after.inUse == st.inUse
    ensures Count(trace, Release) == Count(trace, Acquire) <= 1
    ensures r.Ok? <==> driver.connect(st.inUse).None? && driver.query(st.data, q, values).Ok?
    ensures r.Ok? ==> r.value == driver.query(st.data, q, values).value.answer.rows
    ensures r.Err? ==> after.data == st.data
    ensures driver.connect(st.inUse).Some? ==> r == Err(driver.connect(st.inUse).value) && after == st && trace == []
    ensures driver.connect(st.inUse).None? ==> trace == [Acquire, Release]
    ensures driver.connect(st.inUse).None? && driver.query(st.data, q, values).Err? ==>
      r == Err(driver.query(st.data, q, values).error) && after == st
    ensures r.Ok? ==> after.data == driver.query(st.data, q, values).value.after
  {
    var answer;
    answer, after, trace := WithClient(st, driver, q, values);
    r := if answer.Ok? then Ok(answer.value.rows) else Err(answer.error);
  }

  /** `queryOne`: the first row, or null when the answer has no rows. */
  method QueryOne(st: Pool, driver: Driver, q: string, values: Js.Value)
    returns (r: Result<Js.Value>, after: Pool, trace: seq<Event>)
    ensures after.inUse == st.inUse
    ensures Count(trace, Release) == Count(trace, Acquire) <= 1
    ensures r.Ok? <==> driver.connect(st.inUse).None? && driver.query(st.data, q, values).Ok?
    ensures r.Ok? && driver.query(st.data, q, values).value.answer.rows == [] ==> r.value == Js.Null
    ensures r.Ok? && driver.query(st.data, q, values).value.answer.rows != [] ==>
      r.value == driver.query(st.data, q, values).value.answer.rows[0]
    ensures r.Err? ==> after.data == st.data
    ensures driver.connect(st.inUse).Some? ==> r == Err(driver.connect(st.inUse).value) && after == st && trace == []
    ensures driver.connect(st.inUse).None? ==> trace == [Acquire, Release]
    ensures driver.connect(st.inUse).None? && driver.query(st.data, q, values).Err? ==>
      r == Err(driver.query(st.data, q, values).error) && after == st
    ensures r.Ok? ==> after.data == driver.query(st.data, q, values).value.after
  {
    var answer;
    answer, after, trace := WithClient(st, driver, q, values);
    if answer.Err? {
      r := Err(answer.error);
    } else {
      var rows := answer.value.rows;
      r := Ok(if |rows| > 0 then rows[0] else Js.Null);
    }
  }

  /** The result record of `execute` and `batch`. */
  datatype ExecResult = ExecResult(rowCount: int, rows: seq<Js.Value>)

  /** `result.rowCount || 0`. */
  function CountOf(a: Answer): (n: int)
    ensures Js.Or(Js.OfInt(a.rowCount), Js.Num(0)) == Js.Num(n)
  {
    Js.IntOr(a.rowCount, 0)
  }

  /** `execute`: the reported row count, null read as 0, with the rows. */
  method Execute(st: Pool, driver: Driver, q: string, values: Js.Value)
    returns (r: Result<ExecResult>, after: Pool, trace: seq<Event>)
    ensures after.inUse == st.inUse
    ensures Count(trace, Release) == Count(trace, Acquire) <= 1
    ensures r.Ok? <==> driver.connect(st.inUse).None? && driver.query(st.data, q, values).Ok?
    ensures r.Ok? ==>
      var a := driver.query(st.data, q, values).value.answer;
      && r.value.rows == a.rows
      && (a.rowCount.Some? ==> r.value.rowCount == a.rowCount.value)
      && (a.rowCount.None? ==> r.value.rowCount == 0)
    ensures r.Err? ==> after.data == st.data
    ensures driver.connect(st.inUse).Some? ==> r == Err(driver.connect(st.inUse).value) && after == st && trace == []
    ensures driver.connect(st.inUse).None? ==> trace == [Acquire, Release]
    ensures driver.connect(st.inUse).None? && driver.query(st.data, q, values).Err? ==>
      r == Err(driver.query(st.data, q, values).error) && after == st
    ensures r.Ok? ==> after.data == driver.query(st.data, q, values).value.after
  {
    var answer;
    answer, after, trace := WithClient(st, driver, q, values);
    r := if answer.Ok? then Ok(ExecResult(CountOf(answer.value), answer.value.rows)) else Err(answer.error);
  }

  // ---------------------------------------------------------------------------
  // transaction
  // ---------------------------------------------------------------------------

  /** `transaction`: BEGIN, the callback, COMMIT on one leased client; any
      failure sends ROLLBACK, whose own failure replaces the original error;
      the client is released in `finally`. */
  method Transaction<T>(st: Pool, driver: Driver, callback: Data -> Result<Work<T>>)
    returns (r: Result<T>, after: Pool, trace: seq<Event>)
    ensures after.inUse == st.inUse
    ensures driver.connect(st.inUse).Some? ==> r == Err(driver.connect(st.inUse).value) && trace == []
    ensures driver.connect(st.inUse).None? ==> Completed(trace)
    ensures driver.connect(st.inUse).None? ==> (Begin in trace <==> driver.query(st.data, "BEGIN", Js.Undefined).Ok?)
    ensures r.Ok? <==>
      && driver.connect(st.inUse).None?
      && driver.query(st.data, "BEGIN", Js.Undefined).Ok?
      && callback(st.data).Ok?
      && driver.query(callback(st.data).value.data, "COMMIT", Js.Undefined).Ok?
    ensures r.Ok? ==>
      r.value == callback(st.data).value.value && after.data == callback(st.data).value.data
    ensures r.Err? ==> after.data == st.data
    ensures Rollback in trace <==> driver.connect(st.inUse).None? && r.Err?
    ensures Rollback in trace && driver.query(st.data, "ROLLBACK", Js.Undefined).Err? ==> r.error == driver.query(st.data, "ROLLBACK", Js.Undefined).error
    ensures Rollback in trace && driver.query(st.data, "ROLLBACK", Js.Undefined).Ok? && driver.query(st.data, "BEGIN", Js.Undefined).Err? ==> r.error == driver.query(st.data, "BEGIN", Js.Undefined).error
    ensures Rollback in trace && driver.query(st.data, "ROLLBACK", Js.Undefined).Ok? && driver.query(st.data, "BEGIN", Js.Undefined).Ok? && callback(st.data).Err? ==>
      r.error == callback(st.data).error
    ensures Rollback in trace && driver.query(st.data, "ROLLBACK", Js.Undefined).Ok? && driver.query(st.data, "BEGIN", Js.Undefined).Ok? && callback(st.data).Ok? ==>
      && driver.query(callback(st.data).value.data, "COMMIT", Js.Undefined).Err?
      && r.error == driver.query(callback(st.data).value.data, "COMMIT", Js.Undefined).error
  {
    r, after, trace := Run(st, ControlOf(driver), callback);
  }

  // ---------------------------------------------------------------------------
  // batch
  // ---------------------------------------------------------------------------

  /** One `client.query(query, values)` of the batch loop. */
  function QueryStep(driver: Driver, q: string): (Data, Js.Value) -> Result<Reply<Answer>>
  {
    (d: Data, values: Js.Value) => driver.query(d, q, values)
  }

  /** The rows of every answer, one answer after the other. */
  function ConcatRows(answers: seq<Answer>): seq<Js.Value>
    decreases |answers|
  {
    if answers == [] then [] else answers[0].rows + ConcatRows(answers[1..])
  }

  /** The row counts of every answer summed, null counted as 0. */
  function CountSum(answers: seq<Answer>): int
    decreases |answers|
  {
    if answers == [] then 0 else CountOf(answers[0]) + CountSum(answers[1..])
  }

  lemma {:induction false} ConcatRowsAppend(a: seq<Answer>, b: seq<Answer>)
    ensures ConcatRows(a + b) == ConcatRows(a) + ConcatRows(b)
    decreases |a|
  {
    if a == [] {
      assert a + b == b;
    } else {
      assert (a + b)[1..] == a[1..] + b;
      ConcatRowsAppend(a[1..], b);
    }
  }

  /** The concatenation keeps each answer's rows together and in order: the
      rows of answer `i` follow those of the answers before it. */
  lemma ConcatRowsInOrder(answers: seq<Answer>, i: nat)
    requires i < |answers|
    ensures var offset := |ConcatRows(answers[..i])|;
      && offset + |answers[i].rows| <= |ConcatRows(answers)|
      && ConcatRows(answers)[offset..offset + |answers[i].rows|] == answers[i].rows
  {
    assert answers == answers[..i] + ([answers[i]] + answers[i + 1..]);
    ConcatRowsAppend(answers[..i], [answers[i]] + answers[i + 1..]);
    assert ([answers[i]] + answers[i + 1..])[1..] == answers[i + 1..];
  }

  /** The callback `batch` hands to `transaction`: the `for` loop with its
      row list and row count accumulators. */
  function BatchLoop(driver: Driver, q: string, vs: seq<Js.Value>, d: Data, rows: seq<Js.Value>, count: int)
    : Result<Work<ExecResult>>
    decreases |vs|
  {
    if vs == [] then Ok(Work(ExecResult(count, rows), d))
    else match driver.query(d, q, vs[0])
      case Err(e) => Err(e)
      case Ok(reply) =>
        BatchLoop(driver, q, vs[1..], reply.after, rows + reply.answer.rows, count + CountOf(reply.answer))
  }

  function Folded(rows: seq<Js.Value>, count: int, run: Result<Replies<Answer>>): Result<Work<ExecResult>>
  {
    match run
    case Err(e) => Err(e)
    case Ok(rs) => Ok(Work(ExecResult(count + CountSum(rs.answers), rows + ConcatRows(rs.answers)), rs.after))
  }

  /** The loop concatenates the rows and sums the counts of the statements run
      in order, and fails exactly when one of them fails. */
  lemma {:induction false} BatchLoopFolds(driver: Driver, q: string, vs: seq<Js.Value>, d: Data, rows: seq<Js.Value>, count: int)
    ensures BatchLoop(driver, q, vs, d, rows, count) == Folded(rows, count, RunAll(QueryStep(driver, q), vs, d))
    decreases |vs|
  {
    if vs != [] {
      var step := QueryStep(driver, q);
      assert step(d, vs[0]) == driver.query(d, q, vs[0]);
      var first := driver.query(d, q, vs[0]);
      if first.Ok? {
        var a := first.value.answer;
        BatchLoopFolds(driver, q, vs[1..], first.value.after, rows + a.rows, count + CountOf(a));
        var rest := RunAll(step, vs[1..], first.value.after);
        if rest.Ok? {
          var answers := [a] + rest.value.answers;
          assert RunAll(step, vs, d) == Ok(Replies(answers, rest.value.after));
          assert answers[1..] == rest.value.answers;
          assert ConcatRows(answers) == a.rows + ConcatRows(rest.value.answers);
          assert CountSum(answers) == CountOf(a) + CountSum(rest.value.answers);
          assert rows + a.rows + ConcatRows(rest.value.answers) == rows + ConcatRows(answers);
        } else {
          assert RunAll(step, vs, d) == Err(rest.error);
        }
      }
    } else {
      assert rows + ConcatRows([]) == rows;
    }
  }

  /** The batch's statements, one per parameter set, run in order. */
  function Executed(driver: Driver, q: string, ps: seq<Js.Value>, d: Data): Result<Replies<Answer>>
  {
    RunAll(QueryStep(driver, q), ps, d)
  }

  /** The first failure of a batch's protected part: BEGIN, then each
      statement in order, then COMMIT; `None` when all of them succeed. */
  function BatchFailure(driver: Driver, q: string, vs: seq<Js.Value>, d: Data): Option<Error>
  {
    if driver.query(d, "BEGIN", Js.Undefined).Err? then Some(driver.query(d, "BEGIN", Js.Undefined).error)
    else match Executed(driver, q, vs, d)
      case Err(e) => Some(e)
      case Ok(rs) => ErrorOf(driver.query(rs.after, "COMMIT", Js.Undefined))
  }

  /** `batch`: every values set in order inside one transaction; the rows are
      concatenated and the counts summed, and a failure at any set rolls back
      the sets before it and is rethrown, unless ROLLBACK's own error
      replaces it. */
  method Batch(st: Pool, driver: Driver, q: string, valuesArray: seq<Js.Value>)
    returns (r: Result<ExecResult>, after: Pool, trace: seq<Event>)
    ensures after.inUse == st.inUse
    ensures Count(trace, Release) == Count(trace, Acquire) <= 1
    ensures driver.connect(st.inUse).Some? ==> r == Err(driver.connect(st.inUse).value) && trace == []
    ensures driver.connect(st.inUse).None? ==> Completed(trace)
    ensures driver.connect(st.inUse).None? ==> (Begin in trace <==> driver.query(st.data, "BEGIN", Js.Undefined).Ok?)
    ensures r.Ok? <==> driver.connect(st.inUse).None? && BatchFailure(driver, q, valuesArray, st.data).None?
    ensures r.Ok? ==>
      && Executed(driver, q, valuesArray, st.data).Ok?
      && r.value == ExecResult(CountSum(Executed(driver, q, valuesArray, st.data).value.answers), ConcatRows(Executed(driver, q, valuesArray, st.data).value.answers))
      && after.data == Executed(driver, q, valuesArray, st.data).value.after
    ensures r.Err? ==> after.data == st.data
    ensures Rollback in trace <==> driver.connect(st.inUse).None? && r.Err?
    ensures Rollback in trace ==>
      r.error == (if driver.query(st.data, "ROLLBACK", Js.Undefined).Err? then driver.query(st.data, "ROLLBACK", Js.Undefined).error else BatchFailure(driver, q, valuesArray, st.data).value)
  {
    BatchLoopFolds(driver, q, valuesArray, st.data, [], 0);
    r, after, trace := Run(st, ControlOf(driver), d => BatchLoop(driver, q, valuesArray, d, [], 0));
  }
}

=== FILE: results.dfy ===
/** Failure-carrying values shared by every module: the wrappers either return a
    value or throw an `Error`, which the model returns instead of throwing. */
module Results {

  datatype Option<+T> = None | Some(value: T)

  /** A thrown JavaScript error, reduced to its message. */
  datatype Error = Error(message: string)

  datatype Result<+T> = Ok(value: T) | Err(error: Error)

  /** The error of a call that may fail, or `None` when it succeeded. */
  function ErrorOf<T>(r: Result<T>): (e: Option<Error>)
    ensures e.None? <==> r.Ok?
    ensures e.Some? ==> r == Err(e.value)
  {
    match r
    case Ok(_) => None
    case Err(e) => Some(e)
  }
}

=== FILE: singleton.dfy ===
/** The lazily built, process-wide instance every wrapper keeps in a static
    field: the first call that brings a configuration builds it, every later
    call returns it and ignores the configuration it is given. */
module Singleton {
  import opened Results

  /** The outcome of one `getInstance` call and the static field after it. */
  datatype Lookup<W> = Lookup(result: Result<W>, slot: Option<W>)

  /** `getInstance(config?)` over the static field `slot`; `build` is the
      private constructor, which may throw, and `missing` the message thrown
      when there is neither an instance nor a configuration. */
  function GetInstance<C, W>(slot: Option<W>, config: Option<C>, build: C -> Result<W>, missing: string)
    : (g: Lookup<W>)
    ensures slot.Some? ==> g == Lookup(Ok(slot.value), slot)
    ensures slot.None? && config.None? ==> g == Lookup(Err(Error(missing)), None)
    ensures slot.None? && config.Some? ==> g.result == build(config.value)
    ensures slot.None? && config.Some? && build(config.value).Ok? ==> g.slot == Some(build(config.value).value)
    ensures g.result.Ok? <==> g.slot.Some? && g.result == Ok(g.slot.value)
    ensures g.result.Err? ==> g.slot == slot
  {
    if slot.Some? then Lookup(Ok(slot.value), slot)
    else if config.None? then Lookup(Err(Error(missing)), None)
    else match build(config.value)
      case Err(e) => Lookup(Err(e), None)
      case Ok(w) => Lookup(Ok(w), Some(w))
  }

  /** The results of successive calls, each one seeing the field the previous one left. */
  function Calls<C, W>(slot: Option<W>, configs: seq<Option<C>>, build: C -> Result<W>, missing: string)
    : (rs: seq<Result<W>>)
    ensures |rs| == |configs|
    decreases |configs|
  {
    if configs == [] then []
    else
      var g := GetInstance(slot, configs[0], build, missing);
      [g.result] + Calls(g.slot, configs[1..], build, missing)
  }

  lemma {:induction false} PinnedCalls<C, W>(w: W, configs: seq<Option<C>>, build: C -> Result<W>, missing: string)
    ensures forall k :: 0 <= k < |configs| ==> Calls(Some(w), configs, build, missing)[k] == Ok(w)
    decreases |configs|
  {
    if configs != [] {
      PinnedCalls(w, configs[1..], build, missing);
    }
  }

  /** Once a call has produced an instance, every later call returns that same
      instance, whatever configuration it passes. */
  lemma {:induction false} SameInstanceAfterwards<C, W>(
    slot: Option<W>, configs: seq<Option<C>>, build: C -> Result<W>, missing: string, i: nat, j: nat)
    requires i <= j < |configs|
    requires Calls(slot, configs, build, missing)[i].Ok?
    ensures Calls(slot, configs, build, missing)[j] == Calls(slot, configs, build, missing)[i]
    decreases i
  {
    var g := GetInstance(slot, configs[0], build, missing);
    if i == 0 {
      if j > 0 {
        PinnedCalls(g.result.value, configs[1..], build, missing);
      }
    } else {
      SameInstanceAfterwards(g.slot, configs[1..], build, missing, i - 1, j - 1);
    }
  }

  /** At most one instance is ever handed out across any run of calls. */
  lemma OneInstance<C, W>(
    slot: Option<W>, configs: seq<Option<C>>, build: C -> Result<W>, missing: string, i: nat, j: nat)
    requires i < |configs| && j < |configs|
    requires Calls(slot, configs, build, missing)[i].Ok? && Calls(slot, configs, build, missing)[j].Ok?
    ensures Calls(slot, configs, build, missing)[i] == Calls(slot, configs, build, missing)[j]
  {
    if i <= j {
      SameInstanceAfterwards(slot, configs, build, missing, i, j);
    } else {
      SameInstanceAfterwards(slot, configs, build, missing, j, i);
    }
  }
}

=== FILE: sqlite.dfy ===
/** The SQLite wrapper: a singleton over one embedded database handle. Calls
    are synchronous and there is no pool; atomicity comes from the engine's
    own `db.transaction(fn)`, which commits when `fn` returns and rolls back
    and rethrows when it throws. */
module Sqlite {
  import opened Results
  import Js
  import Lifecycle
  import Singleton

  type Data = Lifecycle.Data

  // ---------------------------------------------------------------------------
  // Configuration and the singleton
  // ---------------------------------------------------------------------------

  /** `verbose` is a flag or a logging function, so it is kept as a JavaScript value. */
  datatype Config = Config(
    filename: string, readonly: Option<bool>, fileMustExist: Option<bool>, timeout: Option<int>,
    verbose: Js.Value)

  /** The options the database is opened with. */
  datatype Options = Options(readonly: bool, fileMustExist: bool, timeout: int, verbose: Js.Value)

  /** An open handle: its file, its options and whether foreign keys are enforced. */
  datatype Wrapper = Wrapper(filename: string, options: Options, foreignKeys: bool)

  /** Each option falls back to its default when the configured value is falsy. */
  function OptionsFor(c: Config): (o: Options)
    ensures o.readonly <==> c.readonly == Some(true)
    ensures o.fileMustExist <==> c.fileMustExist == Some(true)
    ensures Js.Truthy(Js.OfInt(c.timeout)) ==> o.timeout == c.timeout.value
    ensures !Js.Truthy(Js.OfInt(c.timeout)) ==> o.timeout == 5000
    ensures o.verbose == (if Js.Truthy(c.verbose) then c.verbose else Js.Bool(false))
  {
    Options(
      Js.BoolOr(c.readonly, false),
      Js.BoolOr(c.fileMustExist, false),
      Js.IntOr(c.timeout, 5000),
      Js.Or(c.verbose, Js.Bool(false)))
  }

  /** The private constructor: opens the file and then turns foreign-key
      enforcement on, both inside one `try`. Either step may throw (a refused
      file, or a file that is not a database), so `open` answers for the two
      together, and its error is the one rethrown. */
  function Create(open: (string, Options) -> Option<Error>, c: Config): (r: Result<Wrapper>)
    ensures r.Err? <==> open(c.filename, OptionsFor(c)).Some?
    ensures r.Err? ==> r.error == open(c.filename, OptionsFor(c)).value
    ensures r.Ok? ==> r.value.foreignKeys && r.value.filename == c.filename && r.value.options == OptionsFor(c)
  {
    match open(c.filename, OptionsFor(c))
    case Some(e) => Err(e)
    case None => Ok(Wrapper(c.filename, OptionsFor(c), true))
  }

  function GetInstance(slot: Option<Wrapper>, config: Option<Config>, open: (string, Options) -> Option<Error>)
    : (g: Singleton.Lookup<Wrapper>)
    ensures slot.Some? ==> g.result == Ok(slot.value) && g.slot == slot
    ensures slot.None? && config.None? ==> g.result == Err(Error("SQLite configuration required"))
    ensures slot.None? && config.Some? ==> g.result == Create(open, config.value)
    ensures slot.None? && config.Some? ==> (g.result.Ok? <==> open(config.value.filename, OptionsFor(config.value)).None?)
    ensures slot.None? && g.result.Ok? ==> g.result.value.foreignKeys
    ensures g.result.Ok? ==> g.slot == Some(g.result.value)
    ensures g.result.Err? ==> g.slot == None
  {
    Singleton.GetInstance(slot, config, c => Create(open, c), "SQLite configuration required")
  }

  // ---------------------------------------------------------------------------
  // The engine
  // ---------------------------------------------------------------------------

  /** How a prepared statement is called: with no arguments, or with one. */
  datatype Binding = Unbound | Bound(params: Js.Value)

  /** What running a statement reports. */
  datatype RunInfo = RunInfo(changes: int, lastInsertRowid: int)

  /** The engine, as an oracle: `prepare` may refuse a statement; `all` and
      `get` read (`get` answers undefined when no row matches); `run` writes. */
  datatype Driver = Driver(
    prepare: string -> Option<Error>,
    all: (Data, string, Binding) -> Result<seq<Js.Value>>,
    get: (Data, string, Binding) -> Result<Js.Value>,
    run: (Data, string, Binding) -> Result<Lifecycle.Reply<RunInfo>>)

  /** A call's result and the database contents afterwards. */
  datatype Effect<T> = Effect(result: Result<T>, data: Data)

  /** The result record of `execute` and `batch`; neither fills `data`. */
  datatype RunResult = RunResult(changes: int, lastInsertRowid: int, data: Option<seq<Js.Value>>)

  /** `params ? stmt.x(params) : stmt.x()`: parameters are bound only when truthy. */
  function Bind(params: Js.Value): (b: Binding)
    ensures b.Bound? <==> Js.Truthy(params)
    ensures b.Bound? ==> b.params == params
  {
    if Js.Truthy(params) then Bound(params) else Unbound
  }

  // ---------------------------------------------------------------------------
  // query, queryOne, execute
  // ---------------------------------------------------------------------------

  /** `query`: every row, as the engine answers it. */
  function Query(db: Data, driver: Driver, sql: string, params: Js.Value): (r: Result<seq<Js.Value>>)
    ensures driver.prepare(sql).Some? ==> r == Err(driver.prepare(sql).value)
    ensures driver.prepare(sql).None? && Js.Truthy(params) ==> r == driver.all(db, sql, Bound(params))
    ensures driver.prepare(sql).None? && !Js.Truthy(params) ==> r == driver.all(db, sql, Unbound)
  {
    match driver.prepare(sql)
    case Some(e) => Err(e)
    case None => driver.all(db, sql, Bind(params))
  }

  /** `queryOne`: the engine's single-row answer, passed on unchanged, so an
      empty result is `undefined` rather than an error. */
  function QueryOne(db: Data, driver: Driver, sql: string, params: Js.Value): (r: Result<Js.Value>)
    ensures driver.prepare(sql).Some? ==> r == Err(driver.prepare(sql).value)
    ensures driver.prepare(sql).None? && Js.Truthy(params) ==> r == driver.get(db, sql, Bound(params))
    ensures driver.prepare(sql).None? && !Js.Truthy(params) ==> r == driver.get(db, sql, Unbound)
  {
    match driver.prepare(sql)
    case Some(e) => Err(e)
    case None => driver.get(db, sql, Bind(params))
  }

  /** `execute`: exactly the run's two numbers, nothing added; the change is
      committed as the statement completes. */
  function Execute(db: Data, driver: Driver, sql: string, params: Js.Value): (o: Effect<RunResult>)
    ensures o.result.Ok? <==> driver.prepare(sql).None? && driver.run(db, sql, Bind(params)).Ok?
    ensures o.result.Ok? ==>
      var info := driver.run(db, sql, Bind(params)).value;
      && o.result.value == RunResult(info.answer.changes, info.answer.lastInsertRowid, None)
      && o.data == info.after
    ensures o.result.Err? ==> o.data == db
    ensures o.result.Err? ==>
      o.result.error == (if driver.prepare(sql).Some? then driver.prepare(sql).value
                         else driver.run(db, sql, Bind(params)).error)
  {
    match driver.prepare(sql)
    case Some(e) => Effect(Err(e), db)
    case None =>
      match driver.run(db, sql, Bind(params))
      case Err(e) => Effect(Err(e), db)
      case Ok(reply) => Effect(Ok(RunResult(reply.answer.changes, reply.answer.lastInsertRowid, None)), reply.after)
  }

  /** A falsy `params` (undefined, null, false, 0, "") runs the statement with
      no bindings at all: the call behaves as if no parameters were passed. */
  lemma FalsyParamsAreDropped(db: Data, driver: Driver, sql: string, params: Js.Value)
    requires !Js.Truthy(params)
    ensures Query(db, driver, sql, params) == Query(db, driver, sql, Js.Undefined)
    ensures QueryOne(db, driver, sql, params) == QueryOne(db, driver, sql, Js.Undefined)
    ensures Execute(db, driver, sql, params) == Execute(db, driver, sql, Js.Undefined)
  {
  }

  // ---------------------------------------------------------------------------
  // transaction
  // ---------------------------------------------------------------------------

  /** The engine's `db.transaction(fn)` applied once: `fn`'s effects are kept
      when it returns and discarded when it throws, the error propagating. */
  function EngineTransaction<T>(db: Data, fn: Data -> Result<Lifecycle.Work<T>>): Effect<T>
  {
    match fn(db)
    case Err(e) => Effect(Err(e), db)
    case Ok(w) => Effect(Ok(w.value), w.data)
  }

  /** `transaction(callback)`: the callback run inside the engine's
      transaction, its value returned on success; a throw propagates and
      leaves the database as it was. */
  function Transaction<T>(db: Data, callback: Data -> Result<Lifecycle.Work<T>>): (o: Effect<T>)
    ensures o.result.Ok? <==> callback(db).Ok?
    ensures o.result.Ok? ==> o.result.value == callback(db).value.value && o.data == callback(db).value.data
    ensures o.result.Err? ==> o.result.error == callback(db).error && o.data == db
  {
    EngineTransaction(db, callback)
  }

  // ---------------------------------------------------------------------------
  // batch
  // ---------------------------------------------------------------------------

  /** One `stmt.run(params)` of the batch loop. Unlike `execute`, the loop
      binds each parameter set as given, falsy or not. */
  function RunStep(driver: Driver, sql: string): (Data, Js.Value) -> Result<Lifecycle.Reply<RunInfo>>
  {
    (d: Data, params: Js.Value) => driver.run(d, sql, Bound(params))
  }

  function ChangesSum(infos: seq<RunInfo>): int
    decreases |infos|
  {
    if infos == [] then 0 else infos[0].changes + ChangesSum(infos[1..])
  }

  /** The row id of the last run whose `lastInsertRowid` is truthy (non-zero:
      SQLite row ids may be negative), or 0 when there is none. */
  function LastRowid(infos: seq<RunInfo>): int
    decreases |infos|
  {
    if infos == [] then 0
    else if infos[|infos| - 1].lastInsertRowid != 0 then infos[|infos| - 1].lastInsertRowid
    else LastRowid(infos[..|infos| - 1])
  }

  /** `LastRowid` is 0 exactly when every run reported a zero row id, and
      otherwise it is the row id of the last run that reported a non-zero one. */
  lemma {:induction false} LastRowidIsLast(infos: seq<RunInfo>)
    ensures LastRowid(infos) == 0 <==> forall i :: 0 <= i < |infos| ==> infos[i].lastInsertRowid == 0
    ensures LastRowid(infos) != 0 ==>
      exists i :: 0 <= i < |infos| && infos[i].lastInsertRowid == LastRowid(infos)
        && forall j :: i < j < |infos| ==> infos[j].lastInsertRowid == 0
    decreases |infos|
  {
    if infos != [] {
      var n := |infos| - 1;
      var init := infos[..n];
      LastRowidIsLast(init);
      assert forall i :: 0 <= i < n ==> init[i] == infos[i];
      if infos[n].lastInsertRowid != 0 {
        assert infos[n].lastInsertRowid == LastRowid(infos);
      } else if LastRowid(init) != 0 {
        var i :| 0 <= i < n && init[i].lastInsertRowid == LastRowid(init)
          && forall j :: i < j < n ==> init[j].lastInsertRowid == 0;
        assert infos[i].lastInsertRowid == LastRowid(infos);
      }
    }
  }

  lemma {:induction false} LastRowidCons(a: RunInfo, rest: seq<RunInfo>)
    ensures LastRowid([a] + rest) == (if LastRowid(rest) != 0 then LastRowid(rest) else a.lastInsertRowid)
    decreases |rest|
  {
    if rest != [] {
      var n := |rest| - 1;
      assert ([a] + rest)[..|rest|] == [a] + rest[..n];
      if rest[n].lastInsertRowid == 0 {
        LastRowidCons(a, rest[..n]);
      }
    } else {
      assert [a] + rest == [a];
      assert [a][..0] == [];
    }
  }

  /** The function `batch` hands to the engine's transaction: the `for` loop
      with the two closure variables it updates. */
  function BatchLoop(driver: Driver, sql: string, ps: seq<Js.Value>, d: Data, changes: int, lastRowid: int)
    : Result<Lifecycle.Work<RunResult>>
    decreases |ps|
  {
    if ps == [] then Ok(Lifecycle.Work(RunResult(changes, lastRowid, None), d))
    else match driver.run(d, sql, Bound(ps[0]))
      case Err(e) => Err(e)
      case Ok(reply) =>
        var info := reply.answer;
        BatchLoop(driver, sql, ps[1..], reply.after, changes + info.changes,
          if info.lastInsertRowid != 0 then info.lastInsertRowid else lastRowid)
  }

  function Folded(changes: int, lastRowid: int, run: Result<Lifecycle.Replies<RunInfo>>)
    : Result<Lifecycle.Work<RunResult>>
  {
    match run
    case Err(e) => Err(e)
    case Ok(rs) =>
      Ok(Lifecycle.Work(RunResult(changes + ChangesSum(rs.answers),
           if LastRowid(rs.answers) != 0 then LastRowid(rs.answers) else lastRowid, None), rs.after))
  }

  /** The loop sums the changes and keeps the last truthy row id of the runs
      made in order, and fails exactly when one of them fails. */
  lemma {:induction false} BatchLoopFolds(driver: Driver, sql: string, ps: seq<Js.Value>, d: Data, changes: int, lastRowid: int)
    ensures BatchLoop(driver, sql, ps, d, changes, lastRowid)
         == Folded(changes, lastRowid, Lifecycle.RunAll(RunStep(driver, sql), ps, d))
    decreases |ps|
  {
    if ps != [] {
      var step := RunStep(driver, sql);
      assert step(d, ps[0]) == driver.run(d, sql, Bound(ps[0]));
      var first := driver.run(d, sql, Bound(ps[0]));
      if first.Ok? {
        var a := first.value.answer;
        BatchLoopFolds(driver, sql, ps[1..], first.value.after, changes + a.changes,
          if a.lastInsertRowid != 0 then a.lastInsertRowid else lastRowid);
        var rest := Lifecycle.RunAll(step, ps[1..], first.value.after);
        if rest.Ok? {
          var infos := [a] + rest.value.answers;
          assert Lifecycle.RunAll(step, ps, d) == Ok(Lifecycle.Replies(infos, rest.value.after));
          assert infos[1..] == rest.value.answers;
          LastRowidCons(a, rest.value.answers);
        } else {
          assert Lifecycle.RunAll(step, ps, d) == Err(rest.error);
        }
      }
    }
  }

  /** `batch`: the statement is prepared once, outside the transaction, then
      every parameter set runs inside one engine transaction. A failure at any
      set leaves no set applied and is rethrown. */
  function Batch(db: Data, driver: Driver, sql: string, paramsArray: seq<Js.Value>): (o: Effect<RunResult>)
    ensures driver.prepare(sql).Some? ==> o == Effect(Err(driver.prepare(sql).value), db)
    ensures o.result.Ok? <==>
      driver.prepare(sql).None? && Lifecycle.RunAll(RunStep(driver, sql), paramsArray, db).Ok?
    ensures o.result.Ok? ==>
      var rs := Lifecycle.RunAll(RunStep(driver, sql), paramsArray, db).value;
      && o.result.value == RunResult(ChangesSum(rs.answers), LastRowid(rs.answers), None)
      && o.data == rs.after
    ensures o.result.Err? ==> o.data == db
    ensures driver.prepare(sql).None? && o.result.Err? ==>
      o.result.error == Lifecycle.RunAll(RunStep(driver, sql), paramsArray, db).error
  {
    match driver.prepare(sql)
    case Some(e) => Effect(Err(e), db)
    case None =>
      BatchLoopFolds(driver, sql, paramsArray, db, 0, 0);
      EngineTransaction(db, d => BatchLoop(driver, sql, paramsArray, d, 0, 0))
  }

  /** A batch of one binds its parameter set even when it is falsy, where
      `execute` would drop it: the two agree only on truthy parameters. */
  lemma BatchBindsEverySet(db: Data, driver: Driver, sql: string, params: Js.Value)
    requires driver.prepare(sql).None?
    ensures Batch(db, driver, sql, [params]).result.Ok? <==> driver.run(db, sql, Bound(params)).Ok?
    ensures Js.Truthy(params) ==> Batch(db, driver, sql, [params]) == Execute(db, driver, sql, params)
  {
    var step := RunStep(driver, sql);
    assert step(db, params) == driver.run(db, sql, Bound(params));
    assert [params][1..] == [];
    var first := driver.run(db, sql, Bound(params));
    if first.Ok? {
      var a := first.value.answer;
      assert Lifecycle.RunAll(step, [], first.value.after) == Ok(Lifecycle.Replies([], first.value.after));
      assert [a] + [] == [a];
      assert Lifecycle.RunAll(step, [params], db) == Ok(Lifecycle.Replies([a], first.value.after));
      assert [a][1..] == [] && [a][..0] == [];
      assert ChangesSum([a]) == a.changes;
      assert LastRowid([a]) == a.lastInsertRowid;
    }
  }
}

=== FILE: upload.dfy ===
/** The `/upload` handler's mapping from stored file paths to the paths and
    URLs it reports: backslashes become slashes, the path is placed under
    `/public`, and the URL is the site prefix followed by that path. */
module Upload {
  import opened Results

  /** An uploaded file, as the upload middleware describes it: where it was stored. */
  datatype File = File(path: string)

  /** `ctx.files`; only the `photos` field is read. */
  datatype Files = Files(photos: Option<seq<File>>)

  datatype PhotoPath = PhotoPath(locPath: string, urlPath: string)

  /** The response body. */
  datatype Body = Body(code: int, message: string, data: seq<PhotoPath>)

  const Success := "成功"

  predicate StartsWith(s: string, prefix: string)
  {
    |prefix| <= |s| && s[..|prefix|] == prefix
  }

  /** `path.replace(/\\/g, "/")`: every backslash replaced by a slash. */
  function FixSlashes(p: string): (q: string)
    ensures |q| == |p|
    ensures forall i :: 0 <= i < |p| ==> q[i] == (if p[i] == '\\' then '/' else p[i])
    decreases |p|
  {
    if p == "" then "" else [if p[0] == '\\' then '/' else p[0]] + FixSlashes(p[1..])
  }

  /** No backslash survives, and normalising twice changes nothing more. */
  lemma FixSlashesNormalises(p: string)
    ensures '\\' !in FixSlashes(p)
    ensures FixSlashes(FixSlashes(p)) == FixSlashes(p)
  {
  }

  /** The path reported to the client: a path already starting with `public`
      only gains a leading slash; any other path is put under `/public/`. */
  function LocPath(fixed: string): (loc: string)
    ensures StartsWith(loc, "/public")
    ensures StartsWith(fixed, "public") ==> loc == "/" + fixed
    ensures !StartsWith(fixed, "public") ==> loc == "/public/" + fixed
    ensures |loc| > |fixed| && loc[|loc| - |fixed|..] == fixed
  {
    if StartsWith(fixed, "public") then "/" + fixed else "/public/" + fixed
  }

  /** The check is on the six letters `public`, not on a directory: a stored
      path such as `publicity.png` starts with them, gains only a leading
      slash and is reported outside `/public/`. */
  lemma PrefixIsNotDirectory(fixed: string)
    requires StartsWith(fixed, "public") && !StartsWith(fixed, "public/")
    ensures LocPath(fixed) == "/" + fixed
    ensures !StartsWith(LocPath(fixed), "/public/")
  {
  }

  lemma PublicityIsOutside()
    ensures LocPath("publicity.png") == "/publicity.png"
    ensures !StartsWith(LocPath("publicity.png"), "/public/")
  {
    assert StartsWith("publicity.png", "public");
    assert "publicity.png"[6] == 'i';
    PrefixIsNotDirectory("publicity.png");
  }

  /** `SITE` interpolated into a template string: an unset variable renders as `undefined`. */
  function SiteText(site: Option<string>): string
  {
    if site.Some? then site.value else "undefined"
  }

  /** One entry of the response: the normalised path under `/public`, and the
      URL made of the site prefix and that path. */
  function MapPhoto(site: Option<string>, f: File): (p: PhotoPath)
    ensures p.urlPath == SiteText(site) + p.locPath
    ensures StartsWith(p.locPath, "/public")
    ensures '\\' !in p.locPath
    ensures |p.locPath| > |f.path|
    ensures p.locPath[|p.locPath| - |f.path|..] == FixSlashes(f.path)
  {
    var fixed := FixSlashes(f.path);
    FixSlashesNormalises(f.path);
    var loc := LocPath(fixed);
    assert loc == (if StartsWith(fixed, "public") then "/" else "/public/") + fixed;
    PhotoPath(loc, SiteText(site) + loc)
  }

  /** The handler: one entry per uploaded photo, in upload order, or none when
      the request carried no files or no `photos` field; always code 200. */
  method HandleUpload(site: Option<string>, files: Option<Files>) returns (body: Body)
    ensures body.code == 200 && body.message == "成功"
    ensures files.None? || files.value.photos.None? ==> body.data == []
    ensures files.Some? && files.value.photos.Some? ==>
      && |body.data| == |files.value.photos.value|
      && forall i :: 0 <= i < |body.data| ==> body.data[i] == MapPhoto(site, files.value.photos.value[i])
    ensures forall i :: 0 <= i < |body.data| ==>
      StartsWith(body.data[i].locPath, "/public") && body.data[i].urlPath == SiteText(site) + body.data[i].locPath
  {
    var photoPaths: seq<PhotoPath> := [];
    if files.Some? && files.value.photos.Some? {
      var photos := files.value.photos.value;
      var k := 0;
      while k < |photos|
        invariant 0 <= k <= |photos|
        invariant |photoPaths| == k
        invariant forall i :: 0 <= i < k ==> photoPaths[i] == MapPhoto(site, photos[i])
      {
        photoPaths := photoPaths + [MapPhoto(site, photos[k])];
        k := k + 1;
      }
    }
    body := Body(200, Success, photoPaths);
  }
}
